=== FILE: README.md ===
# Edge data pipeline of the Raspberry Pi sensor app, modelled in Dafny

This project models the part of the device application (`pi-app`) that turns
sensor reads into Pub/Sub messages:

- **Sensor base class** (`BaseSensor`): each sensor remembers its last
  successful reading and counts consecutive failed reads. `read_with_metadata`
  wraps one driver result into a reading dictionary with status `ok` or `error`.
- **Sensor-type registry** (`SensorTypes`): the `SENSOR_TYPES` table (BMP280,
  DHT22), class lookup by type name, and the default configuration and schema
  of each type.
- **Sensor manager** (`SensorManager`): the registry of live sensor instances
  kept in step with the configuration's `sensors` list. It covers add and
  remove with their error paths, single and bulk reads, the start/stop flag,
  one pass of the collection loop, and start-up from the stored configuration.
- **Cloud publisher** (`CloudPublisher`): the downsampling filter, the FIFO
  message queue, the batch trigger, and the batch drain. A failed batch is moved
  to an offline buffer and counted as an error.

Everything is an immutable record with pure transition functions. Hardware and
the network are oracles passed in as parameters:

- a driver `read()` is a `ReadOutcome` (values, or the message it raised);
- `initialize()` is a boolean `initOk`;
- the Pub/Sub send of one batch is a boolean `sendOk`;
- the wall clock is an integer `now`, and over a run of steps a function
  `clock` from step number to time.

Metric values and thresholds are `real`. The change test is the exact
comparison `|new - last| > threshold`, with a missing threshold read as 0.

Four facts about the publisher shape the model:

- the filter drops every error reading, so error readings are never forwarded;
- the queue has no capacity bound and drops nothing;
- a failed batch is not retried, backed off, dead-lettered or tagged with an
  idempotency key;
- the offline buffer is written but never read back.

Modules, one file each: `Wrappers` (Option, Result), `Seqs` (reversal,
subsequences), `Readings` (the reading record and the change test),
`SensorTypes`, `BaseSensor`, `CloudPublisher` and `SensorManager`.

## Model

| member | source | states |
|---|---|---|
| Seqs.Reverse | pi-app/cloud_publisher.py:203-204 | popping a list until it is empty yields its elements back to front: same length, element i is element n-1-i, same multiset |
| Readings.ScanForChange | pi-app/cloud_publisher.py:127-135 | the metric loop returns true exactly when some metric present in both the new and the last values differs by strictly more than its threshold (missing threshold = 0); iteration order does not matter |
| Readings.UnchangedValuesNeverExceed | pi-app/cloud_publisher.py:132 | with no negative threshold, values compared with themselves never count as a change |
| Readings.OnlySharedMetricsCount | pi-app/cloud_publisher.py:128 | metrics absent from the last values never trigger: adding or overwriting them leaves the verdict unchanged |
| SensorTypes.GetSensorClass | pi-app/sensors/__init__.py:75-78 | lookup succeeds exactly for "BMP280" and "DHT22"; the class found reports the name it was looked up under; any other name gives the "Unknown sensor type" error |
| SensorTypes.GetAvailableSensors | pi-app/sensors/__init__.py:88 | returns `SENSOR_TYPES` unchanged: its names are exactly BMP280 and DHT22, which are exactly the names lookup accepts; lookup returns each entry's class; each entry's metrics are its class's metrics; and every default configuration value has a schema field that permits it |
| SensorTypes.RegistryMatchesClasses | pi-app/sensors/__init__.py:13-58 | each entry's metrics list equals its class's available metrics, and its class's type name equals the entry's key |
| SensorTypes.DefaultsWithinSchema | pi-app/sensors/__init__.py:18-54 | every default configuration value has a schema field and lies within its options (address 0x76) or range (pressure 1013.25 in [900,1100], pin 4 in [2,27]) |
| BaseSensor.NewSensor | pi-app/sensors/base.py:27-32 | a new sensor is active, has error count 0, and has no last reading or reading time |
| BaseSensor.ReadWithMetadata | pi-app/sensors/base.py:87-110 | success: status ok with the read values, last reading := those values, error count := 0. Failure: status error, empty values, the message, error count + 1 reported in the reading, last reading unchanged |
| BaseSensor.ErrorCountIsConsecutiveFailures | pi-app/sensors/base.py:91-101 | after any run of reads the error count equals the failures since the last success (added to the start value if there was no success) |
| BaseSensor.LastReadingIsLastSuccess | pi-app/sensors/base.py:88-89 | after any run of reads the last reading is the values of the last successful read; failures never replace it |
| BaseSensor.FreshStatusAfterReads | pi-app/sensors/base.py:119-127 | the status of a fresh sensor after any run of reads reports the trailing failure count, the last successful values, its id, config and active flag |
| BaseSensor.SeriesKeepsIdentity | pi-app/sensors/base.py:87-110 | reads never change a sensor's id, class, config or active flag |
| BaseSensor.ShouldPublish | pi-app/sensors/base.py:141-153 | true when there is no last reading; otherwise true exactly when a metric present in both differs from the last observed reading by more than its threshold |
| BaseSensor.ReadValuesAreNotNovel | pi-app/sensors/base.py:145-153 | with no negative threshold, a value just read is never publishable against the sensor's own memory, because the comparison is with the last observed, not last published, reading |
| BaseSensor.GetStatus | pi-app/sensors/base.py:119-127 | the report carries exactly the sensor's id, type name, active flag, last reading and time, error count and config |
| CloudPublisher.NewPublisher | pi-app/cloud_publisher.py:46-66 | enabled only if configured on and the client could be created; batch size defaults to 10 and max wait to 5; the publisher starts with empty queue, buffer and filter state, zero counters, and the batch timer at now |
| CloudPublisher.ShouldPublish | pi-app/cloud_publisher.py:117-135 | a sensor with no last-published entry always passes; otherwise it passes exactly when a metric present in both differs by strictly more than its threshold (default 0) |
| CloudPublisher.Filter | pi-app/cloud_publisher.py:148-156 | the forwarded readings keep input order, all have status ok, and the last-published map becomes the old map overwritten in order by each forwarded reading's values; all-error input forwards nothing and changes nothing |
| CloudPublisher.RecordKeepsOthers | pi-app/cloud_publisher.py:154-156 | a sensor with no forwarded reading keeps its last-published entry, or keeps lacking one |
| CloudPublisher.RecordHoldsLatest | pi-app/cloud_publisher.py:154-156 | a sensor's last-published entry is a copy of the values of its latest forwarded reading |
| CloudPublisher.FilterStep | pi-app/cloud_publisher.py:150-156 | the readings are decided one at a time: reading i is forwarded, and its values recorded, exactly when it is ok and passes the threshold test against the state the readings before it left; earlier decisions are never revisited |
| CloudPublisher.FilterSingle | pi-app/cloud_publisher.py:151-156 | a single reading is forwarded and recorded as its sensor's last published values exactly when it is ok and novel; otherwise nothing is forwarded and nothing changes |
| CloudPublisher.FilterAppend | pi-app/cloud_publisher.py:150-156 | readings are processed in order: filtering a+b is filtering a, then filtering b against the state a left, so a later reading is compared with an earlier forwarded one |
| CloudPublisher.FilterIgnoresErrors | pi-app/cloud_publisher.py:151 | deleting an error reading from anywhere in the input changes neither what is forwarded nor the last-published values |
| CloudPublisher.ThresholdExample | pi-app/cloud_publisher.py:127-156 | with threshold 0.5: 22.0 is forwarded, 22.3 suppressed, 22.6 forwarded, and 22.6 is recorded as last published |
| CloudPublisher.TakeBatch | pi-app/cloud_publisher.py:177-181 | the drain loop splits the queue into a front batch and the rest; it stops at batch_size messages or at an empty queue, and takes none when batch_size is not positive |
| CloudPublisher.PublishBatch | pi-app/cloud_publisher.py:170-205 | empty queue: no change. Otherwise the first min(batch_size, len) messages leave the queue in order and the rest stay. Success: publish count + k and timer := now. Failure: error count + 1, messages appended to the offline buffer in reverse, timer unchanged. Nothing is lost or duplicated |
| CloudPublisher.Publish | pi-app/cloud_publisher.py:137-168 | disabled, or nothing forwarded: no change at all. Otherwise forwarded readings join the back of the queue in input order, the filter state is updated, and one batch runs exactly when the queue length reaches batch_size or max_batch_wait has passed since the last successful batch (or since construction; a failed batch does not reset the timer) |
| CloudPublisher.Flush | pi-app/cloud_publisher.py:226-229 | empty queue: no change; otherwise exactly one batch attempt with the accounting above |
| CloudPublisher.Shutdown | pi-app/cloud_publisher.py:247-252 | disabled, or an empty queue: no change; enabled with a non-empty queue: exactly one flush |
| CloudPublisher.GetStats | pi-app/cloud_publisher.py:231-245 | the statistics report the enabled flag, both counters, the queue and offline-buffer sizes, and the last batch time |
| CloudPublisher.BatchConservesMessages | pi-app/cloud_publisher.py:193-204 | a batch attempt keeps queue size + offline size + publish count constant |
| CloudPublisher.PublishAccountsForForwarded | pi-app/cloud_publisher.py:149-168 | a publish call raises queue size + offline size + publish count by exactly the number of forwarded readings |
| CloudPublisher.FlushMakesProgress | pi-app/cloud_publisher.py:226-229 | with a positive batch size, a flush of a non-empty queue removes at least one message and at most one batch |
| CloudPublisher.ShutdownEmptiesShortQueue | pi-app/cloud_publisher.py:247-252 | a queue of at most one batch is emptied by shutdown, its messages forming that batch |
| CloudPublisher.QueueStaysBelowBatchSize | pi-app/cloud_publisher.py:162-168 | if the queue is shorter than a batch and a call gets at most batch_size readings, the queue is still shorter than a batch afterwards |
| CloudPublisher.FailedBatchStillSuppresses | pi-app/cloud_publisher.py:154-204 | filter state advances on forwarding, not delivery: after a reading's batch fails, the same values are suppressed though Pub/Sub never received them |
| SensorManager.DefaultConfig | pi-app/sensor_manager.py:51-69 | the default configuration has no sensors and a 60 s interval; its thresholds are non-negative and cover every metric of every registered type |
| SensorManager.NewManager | pi-app/sensor_manager.py:27-32 | a new manager has no sensors, is not running and has no callback |
| SensorManager.Find | pi-app/sensor_manager.py:171-173 | finds the position of the sensor with the given id, or reports that none is registered |
| SensorManager.Register | pi-app/sensor_manager.py:104-121 | succeeds exactly for a new id, a known type and a successful initialize(); on success it appends one new sensor; otherwise nothing changes; ids stay unique |
| SensorManager.AddSensor | pi-app/sensor_manager.py:92-137 | duplicate id, unknown type or failed initialize(): False and nothing changes. Success: the id maps to a fresh sensor and exactly one {id, type, config, added_at} entry is appended to the config's sensor list |
| SensorManager.WithoutEntries | pi-app/sensor_manager.py:159-161 | keeps the entries with another id in their original order (a subsequence of the input) and each as many times as it occurred; no entry with the id remains; a list without the id is returned unchanged |
| SensorManager.RemoveSensor | pi-app/sensor_manager.py:139-169 | unknown id: False, no change. Otherwise the registry loses exactly one sensor and keeps the others in their order (a subsequence of the old one); with unique ids the removed one is the sensor with that id and every other sensor stays; every config entry with that id is dropped |
| Seqs.DeleteAtIsSubsequence | pi-app/sensor_manager.py:156 | deleting one entry of an insertion-ordered dictionary leaves the rest in their order |
| SensorManager.RemoveUndoesAdd | pi-app/sensor_manager.py:104-161 | removing a just-added sensor restores the manager exactly, when the config had no entry for that id |
| SensorManager.WithoutEntriesAppend | pi-app/sensor_manager.py:124-161 | dropping an id from a list that ends with an entry for it also drops that entry |
| SensorManager.ReadSensor | pi-app/sensor_manager.py:203-216 | unknown or inactive id: None and no change. With unique ids, an active id is read: the reading is that sensor's read_with_metadata reading, the sensor at its position becomes the sensor after that read, and every other sensor is unchanged. The reading is ok exactly when the driver returned values |
| SensorManager.ReadEach | pi-app/sensor_manager.py:225-230 | each active sensor is read once and updated, inactive ones are skipped; the readings' ids are the active ids in registry order, and each reading is the read_with_metadata reading of an active sensor |
| SensorManager.ReadAllSensors | pi-app/sensor_manager.py:218-230 | one reading per active sensor, in registry order, each the read_with_metadata reading of an active sensor with the current time and no device stamp; every active sensor becomes the sensor after its read, inactive sensors are unchanged; configuration, running flag and callback are unchanged |
| SensorManager.ReadAllReadingOf | pi-app/sensor_manager.py:225-230 | with unique ids, the bulk reading reported under a sensor's id is that sensor's own reading |
| SensorManager.ReadSensorAgreesWithReadAll | pi-app/sensor_manager.py:203-230 | with unique ids, reading one active sensor with the outcome its driver gives yields a reading that occurs in the bulk read under that id, and leaves that sensor in the same state as the bulk read |
| SensorManager.ActiveIdsAreTheActiveSensors | pi-app/sensor_manager.py:226-229 | an id gets a reading from a bulk read exactly when its sensor is registered and active |
| SensorManager.SetDataCallback | pi-app/sensor_manager.py:259-266 | the callback is present exactly when a function rather than `None` was passed, so `None` clears it and collection then skips it (see CollectOnce); nothing else changes |
| SensorManager.StartCollection | pi-app/sensor_manager.py:268-277 | while running it is a no-op; otherwise it sets the running flag and changes nothing else |
| SensorManager.StopCollection | pi-app/sensor_manager.py:279-287 | while stopped it is a no-op; otherwise it clears the running flag and changes nothing else |
| SensorManager.StartStopRoundTrip | pi-app/sensor_manager.py:268-287 | stop undoes start on a stopped manager; starting twice is starting once, and stopping twice is stopping once |
| SensorManager.CollectOnce | pi-app/sensor_manager.py:289-304 | not running: no iteration. Running: the readings are those of one bulk read, in order, each stamped with the config's device, customer and location; the manager afterwards is the manager after the bulk read; the callback runs exactly when set and there is at least one reading |
| SensorManager.CollectRun | pi-app/sensor_manager.py:289-309 | a run of collection steps never adds or removes a sensor, or changes its id or active flag, the configuration, the running flag or the callback |
| SensorManager.CollectRunReadsEachSensor | pi-app/sensor_manager.py:289-309 | over a run of collection steps each active sensor goes through exactly the series of reads given by its own driver outcomes, one per step at that step's time; inactive sensors are untouched |
| SensorManager.CollectRunErrorCount | pi-app/sensor_manager.py:289-309 | over a run of collection steps an active sensor's error count is the number of failed reads since its last success (on top of its start value if none succeeded) |
| SensorManager.InitializeAsWritten | pi-app/sensor_manager.py:312-320 | the start-up loop as written, walking a list that add_sensor appends to. It terminates, and every stored entry with a known type whose initialize() succeeds is registered. The existing sensors and the stored list it started from are kept as prefixes, and ids stay unique. Each sensor added is paired with the one stored entry appended at the same offset: that entry has a known type, is stamped with the start-up time, and the sensor is exactly the fresh instance built from it. Nothing else changes: not the rest of the configuration, the running flag or the callback |
| SensorManager.RestartGrowsStoredList | pi-app/sensor_manager.py:312-320 | every start-up from a fresh manager appends, after the stored list, one entry per sensor it brings up. Every initialisable stored entry is registered, and the rest of the configuration and both flags are unchanged |
| SensorManager.RestartAppendsRestampedEntries | pi-app/sensor_manager.py:123-130 | the entry appended for the j-th sensor brought up has a known type, the sensor is exactly the instance built from it, and it is a copy of a stored entry of known type whose initialize() succeeds, restamped with the start-up time |
| SensorManager.AsWrittenRegistersLikeCorrected | pi-app/sensor_manager.py:312-320 | the as-written and the corrected start-up register exactly the same sensors. The corrected one keeps the stored list; the as-written one grows it by one entry per sensor added (RestartGrowsStoredList) |
| SensorManager.AsWrittenBuildsFromStored | pi-app/sensor_manager.py:104-121 | every sensor the as-written start-up adds is the fresh instance built from a stored entry with a known type whose initialize() succeeds |
| SensorManager.AsWrittenWalkRegistersLikeSnapshot | pi-app/sensor_manager.py:104-137 | from any position within the original entries, the as-written loop registers exactly what the corrected walk over them registers: every entry past them is for a registered id, which add_sensor rejects as a duplicate without changing anything |
| SensorManager.InitializeAsWrittenDuplicatesEntry | pi-app/sensor_manager.py:312-320 | counterexample: one stored BMP280 entry becomes two stored entries after a single start-up |
| SensorManager.InitializeFrom | pi-app/sensor_manager.py:314-320 | walking a snapshot of entries: each entry with a known type and a successful initialize() ends up registered, and existing sensors are kept as a prefix. Every sensor added is exactly the fresh instance add_sensor builds from an entry with a known type whose initialize() succeeded, and every new id comes from such an entry. The configuration and flags are unchanged |
| SensorManager.InitializeFromConfig | pi-app/sensor_manager.py:312-320 | corrected start-up: only the sensor list changes, so the stored list stays as it was. Existing sensors are kept as a prefix and ids stay unique. An id is registered afterwards exactly when it was registered before or some stored entry for it has a known type and a successful initialize(). Each sensor added is the fresh instance built from such a stored entry |
| SensorManager.InitializeFromConfigKeepsEntry | pi-app/sensor_manager.py:312-320 | on the counterexample input the corrected start-up registers the sensor and keeps the single stored entry |

## Left out

- Pub/Sub client creation and the per-message futures with their 10-second timeout (pi-app/cloud_publisher.py:68-104, 184-191): foreign calls. Only the outcome of one batch send survives, as `sendOk`. A batch with no messages makes no call, so it is modelled as succeeding.
- JSON encoding of messages: the offline buffer holds readings rather than encoded bytes.
- Configuration file load and save (pi-app/sensor_manager.py:34-90) and offline-buffer save and load (pi-app/cloud_publisher.py:207-224): file I/O. `_load_offline_buffer` is never called by the application.
- Capacity-bounded drop-oldest, retries with exponential backoff, dead-lettering, idempotency keys and reload on restart: the code does not implement them, although its module docstring mentions retries.
- The collection thread, its sleep, and the thread join in `stop_collection`: concurrency and time. One loop iteration is `CollectOnce`.
- `get_sensor_status`, `get_all_sensor_status`, `get_all_sensors`, `update_config`, `shutdown` of the manager, and `get_available_sensor_types`: thin accessors or glue around modelled operations.
- `sensor.close()` in `remove_sensor`: hardware cleanup with no effect on the modelled state.
- Timestamps are an integer clock value, not ISO strings. `publish` and `_publish_batch` read the clock separately; the model uses one `now` for both.
- Clock reads in the manager: `read_with_metadata` reads the clock for each sensor (pi-app/sensors/base.py:90, 105), and `add_sensor` reads it for each entry (pi-app/sensor_manager.py:128). The model uses one `now` per pass of `ReadAllSensors` and `CollectOnce`, and one per start-up of `InitializeAsWritten`.
- Python's dictionary iteration order in the metric loop: the change test stops at the first metric over its threshold, so the verdict does not depend on the order.
- Float rounding in the drivers and in `abs(a - b) > t`: values are exact reals.
- The hardware drivers (`pi-app/sensors/bmp280.py`, `pi-app/sensors/dht22.py`) beyond their type names and metric lists; the `sensor-readers` scripts; the Flask app; the cloud API.
- SensorTypes.DefaultsWithinSchema: checks options and ranges only, not the `step` field. The BMP280 default 1013.25 is not on the 0.1 grid that starts at 900.

## Findings

| source | as written | input that shows it | evidently intended | confidence | as-written member | corrected member |
|---|---|---|---|---|---|---|
| pi-app/sensor_manager.py:312-320 | `initialize_from_config` loops over the stored `sensors` list and calls `add_sensor`, which appends a new entry to that same list and saves it | a stored config with one BMP280 entry whose hardware initialises: after start-up the stored list holds two entries for that sensor; in general every restart appends one entry per working sensor (SensorManager.RestartGrowsStoredList), a restamped copy of its stored entry (SensorManager.RestartAppendsRestampedEntries) | start-up registers the stored sensors and leaves the stored list as it was | medium, not executed | SensorManager.InitializeAsWrittenDuplicatesEntry | SensorManager.InitializeFromConfig |

=== FILE: base_sensor.dfy ===
/** The per-sensor state machine every sensor class inherits: it remembers the last
    successful reading and counts consecutive failed reads. The driver's `read()`
    is an oracle whose outcome is passed in as a `ReadOutcome`. */
module BaseSensor {
  import opened Wrappers
  import opened Readings
  import opened SensorTypes

  /** Sensor-specific configuration (I2C address, GPIO pin, reference pressure, ...). */
  type SensorConfig = map<string, real>

  datatype Sensor = Sensor(
    id: string,
    cls: SensorClass,
    config: SensorConfig,
    lastReading: Option<Metrics>,
    lastReadingTime: Option<int>,
    isActive: bool,
    errorCount: nat)

  /** What the driver's `read()` did: returned values, or raised with a message. */
  datatype ReadOutcome = Values(values: Metrics) | Raised(message: string)

  /** A freshly constructed sensor: active, no errors, nothing read yet. */
  function NewSensor(id: string, cls: SensorClass, config: SensorConfig): (s: Sensor)
    ensures s.id == id && s.cls == cls && s.config == config
    ensures s.isActive && s.errorCount == 0
    ensures s.lastReading == None && s.lastReadingTime == None
  {
    Sensor(id, cls, config, None, None, true, 0)
  }

  datatype ReadResult = ReadResult(sensor: Sensor, reading: Reading)

  /** `read_with_metadata`: wrap one driver outcome into a reading and update the
      sensor's memory of it. */
  function ReadWithMetadata(s: Sensor, outcome: ReadOutcome, now: int): (r: ReadResult)
    ensures r.reading.sensorId == s.id && r.reading.sensorType == TypeName(s.cls)
    ensures r.reading.timestamp == now && r.reading.stamp == None
    ensures r.sensor.id == s.id && r.sensor.cls == s.cls && r.sensor.config == s.config
    ensures r.sensor.isActive == s.isActive
    ensures outcome.Values? ==>
      && r.reading.status == Ok && r.reading.values == outcome.values
      && r.reading.error == None && r.reading.errorCount == None
      && r.sensor.lastReading == Some(outcome.values) && r.sensor.lastReadingTime == Some(now)
      && r.sensor.errorCount == 0
    ensures outcome.Raised? ==>
      && r.reading.status == Error && r.reading.values == map[]
      && r.reading.error == Some(outcome.message)
      && r.sensor.errorCount == s.errorCount + 1
      && r.reading.errorCount == Some(r.sensor.errorCount)
      && r.sensor.lastReading == s.lastReading && r.sensor.lastReadingTime == s.lastReadingTime
  {
    match outcome
    case Values(values) =>
      var s' := s.(lastReading := Some(values), lastReadingTime := Some(now), errorCount := 0);
      ReadResult(s', Reading(s.id, TypeName(s.cls), now, values, Ok, None, None, None))
    case Raised(message) =>
      var s' := s.(errorCount := s.errorCount + 1);
      ReadResult(s', Reading(s.id, TypeName(s.cls), now, map[], Error, Some(message), Some(s'.errorCount), None))
  }

  /** The sensor after reading it once per outcome, in order; read number `i`
      happens at time `clock(i)`. */
  function ReadSeries(s: Sensor, outcomes: seq<ReadOutcome>, clock: nat -> int): Sensor
    decreases |outcomes|
  {
    if |outcomes| == 0 then s
    else ReadWithMetadata(ReadSeries(s, outcomes[..|outcomes| - 1], clock), outcomes[|outcomes| - 1], clock(|outcomes| - 1)).sensor
  }

  /** Number of failed reads at the end of `outcomes`, after its last success. */
  function TrailingFailures(outcomes: seq<ReadOutcome>): nat
    decreases |outcomes|
  {
    if |outcomes| == 0 || outcomes[|outcomes| - 1].Values? then 0
    else 1 + TrailingFailures(outcomes[..|outcomes| - 1])
  }

  predicate HasSuccess(outcomes: seq<ReadOutcome>) {
    exists i :: 0 <= i < |outcomes| && outcomes[i].Values?
  }

  /** The values of the last successful read in `outcomes`, if any. */
  function LastSuccess(outcomes: seq<ReadOutcome>): Option<Metrics>
    decreases |outcomes|
  {
    if |outcomes| == 0 then None
    else if outcomes[|outcomes| - 1].Values? then Some(outcomes[|outcomes| - 1].values)
    else LastSuccess(outcomes[..|outcomes| - 1])
  }

  /** The error counter is the number of consecutive failures since the last
      success (counted on top of the starting value when nothing succeeded). */
  lemma {:induction false} ErrorCountIsConsecutiveFailures(s: Sensor, outcomes: seq<ReadOutcome>, clock: nat -> int)
    ensures ReadSeries(s, outcomes, clock).errorCount
         == (if HasSuccess(outcomes) then 0 else s.errorCount) + TrailingFailures(outcomes)
    decreases |outcomes|
  {
    if |outcomes| > 0 {
      var front := outcomes[..|outcomes| - 1];
      ErrorCountIsConsecutiveFailures(s, front, clock);
      if outcomes[|outcomes| - 1].Raised? {
        if HasSuccess(outcomes) {
          var i :| 0 <= i < |outcomes| && outcomes[i].Values?;
          assert front[i].Values?;
        } else {
          forall i | 0 <= i < |front| ensures !front[i].Values? {
            assert outcomes[i] == front[i];
          }
        }
      } else {
        assert HasSuccess(outcomes);
      }
    }
  }

  /** The remembered reading is the last successful one; failures never replace it. */
  lemma {:induction false} LastReadingIsLastSuccess(s: Sensor, outcomes: seq<ReadOutcome>, clock: nat -> int)
    ensures ReadSeries(s, outcomes, clock).lastReading
         == (if LastSuccess(outcomes).Some? then LastSuccess(outcomes) else s.lastReading)
    decreases |outcomes|
  {
    if |outcomes| > 0 {
      LastReadingIsLastSuccess(s, outcomes[..|outcomes| - 1], clock);
    }
  }

  /** The base-class `should_publish`: always on the first reading, otherwise when
      some shared metric moved strictly beyond its threshold since the last
      OBSERVED reading. */
  method ShouldPublish(s: Sensor, newReading: Metrics, thresholds: Thresholds) returns (publish: bool)
    ensures s.lastReading == None ==> publish
    ensures s.lastReading != None ==>
      (publish <==> exists metric :: metric in newReading && Exceeds(newReading, s.lastReading.value, thresholds, metric))
  {
    if s.lastReading == None {
      return true;
    }
    publish := ScanForChange(newReading, s.lastReading.value, thresholds);
  }

  /** Because the comparison is against the last observed reading, the values just
      read never count as publishable again (for non-negative thresholds). */
  lemma ReadValuesAreNotNovel(s: Sensor, values: Metrics, now: int, thresholds: Thresholds)
    requires forall metric :: metric in thresholds ==> thresholds[metric] >= 0.0
    ensures var s' := ReadWithMetadata(s, Values(values), now).sensor;
      s'.lastReading.Some? && !ChangedBeyond(values, s'.lastReading.value, thresholds)
  {
  }

  /** `get_status` (the type name and timestamps come from the sensor record). */
  datatype StatusReport = StatusReport(
    sensorId: string,
    sensorType: string,
    isActive: bool,
    lastReadingTime: Option<int>,
    lastReading: Option<Metrics>,
    errorCount: nat,
    config: SensorConfig)

  function GetStatus(s: Sensor): (r: StatusReport)
    ensures r.sensorId == s.id && r.sensorType == TypeName(s.cls)
    ensures r.isActive == s.isActive && r.errorCount == s.errorCount
    ensures r.lastReading == s.lastReading && r.lastReadingTime == s.lastReadingTime
    ensures r.config == s.config
  {
    StatusReport(s.id, TypeName(s.cls), s.isActive, s.lastReadingTime, s.lastReading, s.errorCount, s.config)
  }

  /** The status of a sensor that started fresh reports, after any run of reads,
      exactly the failures since its last success and the values of that success. */
  lemma FreshStatusAfterReads(id: string, cls: SensorClass, config: SensorConfig, outcomes: seq<ReadOutcome>, clock: nat -> int)
    ensures var report := GetStatus(ReadSeries(NewSensor(id, cls, config), outcomes, clock));
      && report.errorCount == TrailingFailures(outcomes)
      && report.lastReading == LastSuccess(outcomes)
      && report.isActive && report.sensorId == id && report.config == config
  {
  }

  /** Reads never change a sensor's id, class, configuration or active flag. */
  lemma {:induction false} SeriesKeepsIdentity(s: Sensor, outcomes: seq<ReadOutcome>, clock: nat -> int)
    ensures var s' := ReadSeries(s, outcomes, clock);
      s'.id == s.id && s'.cls == s.cls && s'.config == s.config && s'.isActive == s.isActive
    decreases |outcomes|
  {
    if |outcomes| > 0 {
      SeriesKeepsIdentity(s, outcomes[..|outcomes| - 1], clock);
    }
  }
}

=== FILE: cloud_publisher.dfy ===
/** The edge publisher: a downsampling filter in front of a FIFO message queue that
    is drained in batches to Pub/Sub, with failed batches moved to an offline
    buffer. The Pub/Sub client is reduced to the outcome of one batch send
    (`sendOk`) and the wall clock to a `now` parameter. */
module CloudPublisher {
  import opened Wrappers
  import opened Readings
  import opened Seqs

  /** The publisher's configuration dictionary; an absent key is `None`. */
  datatype PublisherConfig = PublisherConfig(enabled: Option<bool>, batchSize: Option<int>, maxBatchWait: Option<int>)

  const DefaultBatchSize: int := 10
  const DefaultMaxBatchWait: int := 5

  datatype Publisher = Publisher(
    enabled: bool,
    batchSize: int,
    maxBatchWait: int,
    queue: seq<Reading>,
    lastPublished: map<string, Metrics>,
    offline: seq<Reading>,
    publishCount: nat,
    errorCount: nat,
    lastBatchTime: int)

  /** The constructor. `clientOk` is whether the Pub/Sub client could be created;
      when it cannot, publishing is switched off. */
  function NewPublisher(config: PublisherConfig, clientOk: bool, now: int): (p: Publisher)
    ensures p.enabled <==> config.enabled == Some(true) && clientOk
    ensures p.batchSize == (if config.batchSize.Some? then config.batchSize.value else DefaultBatchSize)
    ensures p.maxBatchWait == (if config.maxBatchWait.Some? then config.maxBatchWait.value else DefaultMaxBatchWait)
    ensures p.queue == [] && p.offline == [] && p.lastPublished == map[]
    ensures p.publishCount == 0 && p.errorCount == 0 && p.lastBatchTime == now
  {
    var enabled := if config.enabled.Some? then config.enabled.value else false;
    Publisher(
      enabled && clientOk,
      if config.batchSize.Some? then config.batchSize.value else DefaultBatchSize,
      if config.maxBatchWait.Some? then config.maxBatchWait.value else DefaultMaxBatchWait,
      [], map[], [], 0, 0, now)
  }

  // ---------------------------------------------------------------------------
  // Downsampling

  /** The downsampling decision for one reading against the last published values. */
  predicate IsNovel(lastPublished: map<string, Metrics>, r: Reading, thresholds: Thresholds) {
    r.sensorId !in lastPublished || ChangedBeyond(r.values, lastPublished[r.sensorId], thresholds)
  }

  /** `should_publish`: a sensor never published before always passes; otherwise some
      metric present in both the reading and the last published values must have
      moved strictly more than its threshold (a missing threshold is 0). */
  method ShouldPublish(p: Publisher, r: Reading, thresholds: Thresholds) returns (publish: bool)
    ensures r.sensorId !in p.lastPublished ==> publish
    ensures r.sensorId in p.lastPublished ==>
      (publish <==> exists metric :: metric in r.values && Exceeds(r.values, p.lastPublished[r.sensorId], thresholds, metric))
    ensures publish == IsNovel(p.lastPublished, r, thresholds)
  {
    if r.sensorId !in p.lastPublished {
      return true;
    }
    publish := ScanForChange(r.values, p.lastPublished[r.sensorId], thresholds);
  }

  /** Reference meaning of the last-published map after forwarding `forwarded`:
      each forwarded reading, in order, overwrites its sensor's entry with its values. */
  function Record(lastPublished: map<string, Metrics>, forwarded: seq<Reading>): map<string, Metrics>
    decreases |forwarded|
  {
    if |forwarded| == 0 then lastPublished
    else Record(lastPublished[forwarded[0].sensorId := forwarded[0].values], forwarded[1..])
  }

  datatype Filtered = Filtered(forwarded: seq<Reading>, lastPublished: map<string, Metrics>)

  /** The filtering loop of `publish`: readings are taken in order, only `ok`
      readings that pass the downsampling decision are kept, and each kept reading
      immediately becomes its sensor's last published values, so later readings of
      the same call are compared against it. */
  function Filter(readings: seq<Reading>, lastPublished: map<string, Metrics>, thresholds: Thresholds): (f: Filtered)
    ensures IsSubsequence(f.forwarded, readings)
    ensures forall i :: 0 <= i < |f.forwarded| ==> f.forwarded[i].status == Ok
    ensures f.lastPublished == Record(lastPublished, f.forwarded)
    ensures (forall i :: 0 <= i < |readings| ==> readings[i].status == Error) ==> f == Filtered([], lastPublished)
    decreases |readings|
  {
    if |readings| == 0 then Filtered([], lastPublished)
    else
      var r := readings[0];
      if r.status == Ok && IsNovel(lastPublished, r, thresholds) then
        var rest := Filter(readings[1..], lastPublished[r.sensorId := r.values], thresholds);
        SubsequenceOfCons(rest.forwarded, readings[1..], r);
        assert readings == [r] + readings[1..];
        assert ([r] + rest.forwarded)[1..] == rest.forwarded;
        Filtered([r] + rest.forwarded, rest.lastPublished)
      else
        var rest := Filter(readings[1..], lastPublished, thresholds);
        SubsequenceOfCons(rest.forwarded, readings[1..], r);
        assert readings == [r] + readings[1..];
        rest
  }

  /** A sensor no forwarded reading belongs to keeps its last published entry (or its absence). */
  lemma {:induction false} RecordKeepsOthers(lastPublished: map<string, Metrics>, forwarded: seq<Reading>, id: string)
    requires forall i :: 0 <= i < |forwarded| ==> forwarded[i].sensorId != id
    ensures id in Record(lastPublished, forwarded) <==> id in lastPublished
    ensures id in lastPublished ==> Record(lastPublished, forwarded)[id] == lastPublished[id]
    decreases |forwarded|
  {
    if |forwarded| > 0 {
      RecordKeepsOthers(lastPublished[forwarded[0].sensorId := forwarded[0].values], forwarded[1..], id);
    }
  }

  /** Recording one more forwarded reading overwrites just its sensor's entry. */
  lemma {:induction false} RecordSnoc(lastPublished: map<string, Metrics>, forwarded: seq<Reading>, r: Reading)
    ensures Record(lastPublished, forwarded + [r]) == Record(lastPublished, forwarded)[r.sensorId := r.values]
    decreases |forwarded|
  {
    if |forwarded| == 0 {
      assert [r][1..] == [];
    } else {
      assert (forwarded + [r])[1..] == forwarded[1..] + [r];
      RecordSnoc(lastPublished[forwarded[0].sensorId := forwarded[0].values], forwarded[1..], r);
    }
  }

  /** A sensor's last published entry is a copy of the values of its latest forwarded reading. */
  lemma RecordHoldsLatest(lastPublished: map<string, Metrics>, forwarded: seq<Reading>, j: nat)
    requires j < |forwarded|
    requires forall k :: j < k < |forwarded| ==> forwarded[k].sensorId != forwarded[j].sensorId
    ensures forwarded[j].sensorId in Record(lastPublished, forwarded)
    ensures Record(lastPublished, forwarded)[forwarded[j].sensorId] == forwarded[j].values
  {
    var id := forwarded[j].sensorId;
    var front, back := forwarded[..j], forwarded[j + 1..];
    assert forwarded == (front + [forwarded[j]]) + back;
    RecordSnoc(lastPublished, front, forwarded[j]);
    RecordAppend(lastPublished, front + [forwarded[j]], back);
    RecordKeepsOthers(Record(lastPublished, front + [forwarded[j]]), back, id);
  }

  /** Recording two runs of forwarded readings is recording the first, then the second. */
  lemma {:induction false} RecordAppend(lastPublished: map<string, Metrics>, a: seq<Reading>, b: seq<Reading>)
    ensures Record(lastPublished, a + b) == Record(Record(lastPublished, a), b)
    decreases |a|
  {
    if |a| > 0 {
      assert (a + b)[1..] == a[1..] + b;
      RecordAppend(lastPublished[a[0].sensorId := a[0].values], a[1..], b);
    } else {
      assert a + b == b;
    }
  }

  /** Filtering is sequential: filtering `a + b` is filtering `a`, then filtering `b`
      against the last published values `a` left behind. */
  lemma {:induction false} FilterAppend(a: seq<Reading>, b: seq<Reading>, lastPublished: map<string, Metrics>, thresholds: Thresholds)
    ensures var fa := Filter(a, lastPublished, thresholds);
      var fb := Filter(b, fa.lastPublished, thresholds);
      Filter(a + b, lastPublished, thresholds) == Filtered(fa.forwarded + fb.forwarded, fb.lastPublished)
    decreases |a|
  {
    if |a| == 0 {
      assert a + b == b;
    } else {
      var r := a[0];
      var ab := a + b;
      assert ab[0] == r;
      assert ab[1..] == a[1..] + b;
      var forward := r.status == Ok && IsNovel(lastPublished, r, thresholds);
      var next := if forward then lastPublished[r.sensorId := r.values] else lastPublished;
      FilterAppend(a[1..], b, next, thresholds);
      var fa' := Filter(a[1..], next, thresholds);
      var fb := Filter(b, fa'.lastPublished, thresholds);
      if forward {
        calc {
          Filter(ab, lastPublished, thresholds);
          Filtered([r] + Filter(ab[1..], next, thresholds).forwarded, Filter(ab[1..], next, thresholds).lastPublished);
          Filtered([r] + (fa'.forwarded + fb.forwarded), fb.lastPublished);
          { assert [r] + (fa'.forwarded + fb.forwarded) == ([r] + fa'.forwarded) + fb.forwarded; }
          Filtered(([r] + fa'.forwarded) + fb.forwarded, fb.lastPublished);
        }
      }
    }
  }

  /** Each reading is decided against the last published values the readings
      before it left behind: reading `i` is forwarded exactly when it is `ok` and
      novel with respect to them, and nothing decided earlier is revisited. */
  lemma FilterStep(readings: seq<Reading>, i: nat, lastPublished: map<string, Metrics>, thresholds: Thresholds)
    requires i < |readings|
    ensures var before := Filter(readings[..i], lastPublished, thresholds);
      var r := readings[i];
      var forward := r.status == Ok && IsNovel(before.lastPublished, r, thresholds);
      Filter(readings[..i + 1], lastPublished, thresholds)
        == Filtered(before.forwarded + (if forward then [r] else []),
                    if forward then before.lastPublished[r.sensorId := r.values] else before.lastPublished)
  {
    assert readings[..i + 1] == readings[..i] + [readings[i]];
    FilterAppend(readings[..i], [readings[i]], lastPublished, thresholds);
    FilterSingle(readings[i], Filter(readings[..i], lastPublished, thresholds).lastPublished, thresholds);
  }

  /** Error readings are inert: removing one from anywhere in the input changes
      neither what is forwarded nor the last published values. */
  lemma FilterIgnoresErrors(a: seq<Reading>, e: Reading, b: seq<Reading>, lastPublished: map<string, Metrics>, thresholds: Thresholds)
    requires e.status == Error
    ensures Filter(a + [e] + b, lastPublished, thresholds) == Filter(a + b, lastPublished, thresholds)
  {
    assert a + [e] + b == a + ([e] + b);
    FilterAppend(a, [e] + b, lastPublished, thresholds);
    FilterAppend(a, b, lastPublished, thresholds);
    assert ([e] + b)[1..] == b;
  }

  /** With a 0.5 threshold on temperature: 22.0 is forwarded (first reading), 22.3 is
      suppressed (0.3 from the last forwarded value), 22.6 is forwarded (0.6 from
      22.0, not from the suppressed 22.3). */
  lemma ThresholdExample(r1: Reading, r2: Reading, r3: Reading)
    requires r1 == Reading("s1", "BMP280", 1, map["temperature" := 22.0], Ok, None, None, None)
    requires r2 == r1.(timestamp := 2, values := map["temperature" := 22.3])
    requires r3 == r1.(timestamp := 3, values := map["temperature" := 22.6])
    ensures Filter([r1, r2, r3], map[], map["temperature" := 0.5]) == Filtered([r1, r3], map["s1" := r3.values])
  {
    var th := map["temperature" := 0.5];
    var last1 := map["s1" := r1.values];
    assert !ChangedBeyond(r2.values, r1.values, th) by {
      forall metric | metric in r2.values ensures !Exceeds(r2.values, r1.values, th, metric) {
        assert metric == "temperature";
      }
    }
    assert Exceeds(r3.values, r1.values, th, "temperature");
    assert [r1, r2, r3][1..] == [r2, r3];
    assert [r2, r3][1..] == [r3];
    assert [r3][1..] == [];
    assert Filter([r3], last1, th) == Filtered([r3], map["s1" := r3.values]);
    assert Filter([r2, r3], last1, th) == Filtered([r3], map["s1" := r3.values]);
  }

  // ---------------------------------------------------------------------------
  // Batching

  /** How many queued messages one batch takes: the drain loop stops when the queue
      is empty or `batch_size` messages are collected, so it takes none at all when
      `batch_size` is not positive. */
  function BatchLen(batchSize: int, queued: nat): nat {
    if batchSize <= 0 then 0 else if queued < batchSize then queued else batchSize
  }

  /** The drain loop of `_publish_batch`: pop messages off the front of the queue
      while it is non-empty and fewer than `batchSize` have been taken. */
  method TakeBatch(queue: seq<Reading>, batchSize: int) returns (messages: seq<Reading>, rest: seq<Reading>)
    ensures queue == messages + rest
    ensures |messages| <= batchSize || messages == []
    ensures |messages| < batchSize ==> rest == []
    ensures |messages| == BatchLen(batchSize, |queue|)
  {
    messages, rest := [], queue;
    while |rest| > 0 && |messages| < batchSize
      invariant queue == messages + rest
      invariant |messages| <= batchSize || messages == []
      decreases |rest|
    {
      messages, rest := messages + [rest[0]], rest[1..];
    }
  }

  /** The observable effect of one publish call: the publisher afterwards, the
      messages taken off the queue for a batch, and whether Pub/Sub accepted them. */
  datatype Step = Step(next: Publisher, batch: seq<Reading>, delivered: bool)

  /** Settings that no operation changes. */
  predicate SameSettings(p: Publisher, q: Publisher) {
    p.enabled == q.enabled && p.batchSize == q.batchSize && p.maxBatchWait == q.maxBatchWait
  }

  /** What one batch attempt on publisher `p` promises. A batch takes the first
      messages of the queue and leaves the rest queued in order. A delivered batch
      adds its size to the publish count and restarts the batch timer; a failed one
      counts one error, moves its messages to the offline buffer back to front and
      leaves the timer alone. No message is lost or duplicated on the way. */
  ghost predicate BatchAccounting(p: Publisher, r: Step, now: int, sendOk: bool) {
    && SameSettings(p, r.next)
    && r.next.lastPublished == p.lastPublished
    && p.queue == r.batch + r.next.queue
    && |r.batch| == BatchLen(p.batchSize, |p.queue|)
    && (r.delivered <==> sendOk || r.batch == [])
    && (r.delivered ==>
        && r.next.publishCount == p.publishCount + |r.batch|
        && r.next.errorCount == p.errorCount
        && r.next.offline == p.offline
        && r.next.lastBatchTime == now)
    && (!r.delivered ==>
        && r.next.publishCount == p.publishCount
        && r.next.errorCount == p.errorCount + 1
        && r.next.offline == p.offline + Reverse(r.batch)
        && r.next.lastBatchTime == p.lastBatchTime)
    && multiset(p.queue) + multiset(p.offline)
       == multiset(r.next.queue) + multiset(r.next.offline) + (if r.delivered then multiset(r.batch) else multiset{})
  }

  /** `_publish_batch`: nothing on an empty queue, otherwise one batch attempt. A
      batch with no messages makes no Pub/Sub call and so cannot fail. */
  function PublishBatch(p: Publisher, now: int, sendOk: bool): (r: Step)
    ensures p.queue == [] ==> r == Step(p, [], false)
    ensures p.queue != [] ==> BatchAccounting(p, r, now, sendOk)
  {
    if p.queue == [] then Step(p, [], false)
    else
      var k := BatchLen(p.batchSize, |p.queue|);
      var messages, rest := p.queue[..k], p.queue[k..];
      assert p.queue == messages + rest;
      if sendOk || messages == [] then
        Step(p.(queue := rest, publishCount := p.publishCount + k, lastBatchTime := now), messages, true)
      else
        Step(p.(queue := rest, errorCount := p.errorCount + 1, offline := p.offline + Reverse(messages)), messages, false)
  }

  /** The batch trigger of `publish`: the queue has reached the batch size, or the
      maximum wait has passed since the last successful batch. */
  predicate BatchDue(p: Publisher, queued: nat, now: int) {
    queued >= p.batchSize || now - p.lastBatchTime >= p.maxBatchWait
  }

  /** `publish`: filter the readings, append the forwarded ones to the back of the
      queue, and run one batch when it is due. */
  function Publish(p: Publisher, readings: seq<Reading>, thresholds: Thresholds, now: int, sendOk: bool): (r: Step)
    ensures !p.enabled ==> r == Step(p, [], false)
    ensures p.enabled ==>
      var f := Filter(readings, p.lastPublished, thresholds);
      && (f.forwarded == [] ==> r == Step(p, [], false))
      && r.next.lastPublished == f.lastPublished
      && p.queue + f.forwarded == r.batch + r.next.queue
      && (f.forwarded != [] && !BatchDue(p, |p.queue| + |f.forwarded|, now) ==>
            r == Step(p.(queue := p.queue + f.forwarded, lastPublished := f.lastPublished), [], false))
      && (f.forwarded != [] && BatchDue(p, |p.queue| + |f.forwarded|, now) ==>
            BatchAccounting(p.(queue := p.queue + f.forwarded, lastPublished := f.lastPublished), r, now, sendOk))
  {
    if !p.enabled then Step(p, [], false)
    else
      var f := Filter(readings, p.lastPublished, thresholds);
      if f.forwarded == [] then Step(p, [], false)
      else
        var admitted := p.(queue := p.queue + f.forwarded, lastPublished := f.lastPublished);
        if BatchDue(p, |admitted.queue|, now) then
          assert |admitted.queue| > 0;
          var r := PublishBatch(admitted, now, sendOk);
          assert admitted.queue == r.batch + r.next.queue && r.next.lastPublished == f.lastPublished;
          r
        else Step(admitted, [], false)
  }

  /** `flush`: at most one batch, and only when something is queued. */
  function Flush(p: Publisher, now: int, sendOk: bool): (r: Step)
    ensures p.queue == [] ==> r == Step(p, [], false)
    ensures p.queue != [] ==> BatchAccounting(p, r, now, sendOk)
  {
    if p.queue != [] then PublishBatch(p, now, sendOk) else Step(p, [], false)
  }

  /** `shutdown`: a single flush, and only when publishing is enabled. */
  function Shutdown(p: Publisher, now: int, sendOk: bool): (r: Step)
    ensures !p.enabled ==> r == Step(p, [], false)
    ensures p.queue == [] ==> r == Step(p, [], false)
    ensures p.enabled && p.queue != [] ==> BatchAccounting(p, r, now, sendOk)
  {
    if p.enabled then Flush(p, now, sendOk) else Step(p, [], false)
  }

  /** `get_stats`, with the batch time as the raw clock value. */
  datatype Stats = Stats(enabled: bool, publishCount: nat, errorCount: nat, queueSize: nat, offlineBufferSize: nat, lastBatchTime: int)

  function GetStats(p: Publisher): (s: Stats)
    ensures s.enabled == p.enabled && s.publishCount == p.publishCount && s.errorCount == p.errorCount
    ensures s.queueSize == |p.queue| && s.offlineBufferSize == |p.offline|
    ensures s.lastBatchTime == p.lastBatchTime
  {
    Stats(p.enabled, p.publishCount, p.errorCount, |p.queue|, |p.offline|, p.lastBatchTime)
  }

  // ---------------------------------------------------------------------------
  // Properties of the pipeline

  /** Every message of a batch attempt is accounted for in the statistics: it is
      still queued, in the offline buffer, or counted as published. */
  lemma BatchConservesMessages(p: Publisher, r: Step, now: int, sendOk: bool)
    requires BatchAccounting(p, r, now, sendOk)
    ensures var before, after := GetStats(p), GetStats(r.next);
      before.queueSize + before.offlineBufferSize + before.publishCount
      == after.queueSize + after.offlineBufferSize + after.publishCount
  {
  }

  /** Each reading `publish` forwards adds exactly one to the messages the
      statistics account for; suppressed and error readings add nothing. */
  lemma PublishAccountsForForwarded(p: Publisher, readings: seq<Reading>, thresholds: Thresholds, now: int, sendOk: bool)
    requires p.enabled
    ensures var r := Publish(p, readings, thresholds, now, sendOk);
      var before, after := GetStats(p), GetStats(r.next);
      after.queueSize + after.offlineBufferSize + after.publishCount
      == before.queueSize + before.offlineBufferSize + before.publishCount
         + |Filter(readings, p.lastPublished, thresholds).forwarded|
  {
  }

  /** With a positive batch size every flush of a non-empty queue removes at least
      one message and never more than one batch. */
  lemma FlushMakesProgress(p: Publisher, now: int, sendOk: bool)
    requires p.batchSize > 0 && p.queue != []
    ensures var r := Flush(p, now, sendOk);
      |p.queue| - p.batchSize <= |r.next.queue| < |p.queue|
  {
  }

  /** A queue no longer than one batch is emptied by shutdown, delivered or buffered offline. */
  lemma ShutdownEmptiesShortQueue(p: Publisher, now: int, sendOk: bool)
    requires p.enabled && 0 < |p.queue| <= p.batchSize
    ensures var r := Shutdown(p, now, sendOk);
      r.next.queue == [] && r.batch == p.queue
  {
  }

  /** When no call forwards more readings than fit in one batch, the queue stays
      shorter than a batch after every publish, so shutdown's single flush empties it. */
  lemma QueueStaysBelowBatchSize(p: Publisher, readings: seq<Reading>, thresholds: Thresholds, now: int, sendOk: bool)
    requires p.batchSize > 0 && |p.queue| < p.batchSize && |readings| <= p.batchSize
    ensures |Publish(p, readings, thresholds, now, sendOk).next.queue| < p.batchSize
  {
    var f := Filter(readings, p.lastPublished, thresholds);
    SubsequenceLength(f.forwarded, readings);
    var r := Publish(p, readings, thresholds, now, sendOk);
    if p.enabled && f.forwarded != [] && BatchDue(p, |p.queue| + |f.forwarded|, now) {
      assert |p.queue + f.forwarded| == |r.batch| + |r.next.queue|;
    }
  }

  /** The filter state advances when a reading is forwarded, not when it is
      delivered: after the batch holding a reading fails, the same values sent
      again are suppressed even though Pub/Sub never received them. */
  lemma FailedBatchStillSuppresses(p: Publisher, r: Reading, thresholds: Thresholds, now: int)
    requires p.enabled && p.batchSize == 1 && p.queue == []
    requires r.status == Ok && r.sensorId !in p.lastPublished
    requires forall metric :: metric in thresholds ==> thresholds[metric] >= 0.0
    ensures var first := Publish(p, [r], thresholds, now, false);
      && !first.delivered && first.batch == [r] && first.next.offline == p.offline + [r]
      && Publish(first.next, [r], thresholds, now, true) == Step(first.next, [], false)
  {
    var id := r.sensorId;
    FilterSingle(r, p.lastPublished, thresholds);
    var recorded := p.lastPublished[id := r.values];
    var admitted := p.(queue := [r], lastPublished := recorded);
    var first := Publish(p, [r], thresholds, now, false);
    assert first == PublishBatch(admitted, now, false);
    assert BatchLen(1, 1) == 1;
    assert BatchAccounting(admitted, first, now, false);
    assert first.batch == [r] && [r] == Reverse([r]);
    assert first.next.lastPublished == recorded;
    UnchangedValuesNeverExceed(r.values, thresholds);
    assert !IsNovel(recorded, r, thresholds);
    FilterSingle(r, recorded, thresholds);
  }

  /** Filtering a single reading: forwarded exactly when it is `ok` and novel. */
  lemma FilterSingle(r: Reading, lastPublished: map<string, Metrics>, thresholds: Thresholds)
    ensures Filter([r], lastPublished, thresholds)
         == if r.status == Ok && IsNovel(lastPublished, r, thresholds)
            then Filtered([r], lastPublished[r.sensorId := r.values])
            else Filtered([], lastPublished)
  {
  }
}

=== FILE: readings.dfy ===
/** Sensor readings as they travel from a sensor through the manager to the cloud
    publisher, and the "changed beyond threshold" test that both the sensor base
    class and the publisher apply to them. */
module Readings {
  import opened Wrappers

  /** Metric name to measured value (the `readings` dictionary of a reading). */
  type Metrics = map<string, real>

  /** Metric name to the smallest change worth publishing. */
  type Thresholds = map<string, real>

  datatype Status = Ok | Error

  /** Device metadata the collection loop adds to every reading. */
  datatype Stamp = Stamp(deviceId: string, customerId: string, location: string)

  /** One reading dictionary. `error` and `errorCount` are present only on error
      readings; `stamp` only once the collection loop has added device metadata. */
  datatype Reading = Reading(
    sensorId: string,
    sensorType: string,
    timestamp: int,
    values: Metrics,
    status: Status,
    error: Option<string>,
    errorCount: Option<nat>,
    stamp: Option<Stamp>)

  function Abs(x: real): real {
    if x < 0.0 then -x else x
  }

  /** `thresholds.get(metric, 0)`. */
  function ThresholdFor(thresholds: Thresholds, metric: string): real {
    if metric in thresholds then thresholds[metric] else 0.0
  }

  /** Metric `metric` is in both value sets and moved strictly more than its threshold. */
  predicate Exceeds(current: Metrics, last: Metrics, thresholds: Thresholds, metric: string) {
    && metric in current
    && metric in last
    && Abs(current[metric] - last[metric]) > ThresholdFor(thresholds, metric)
  }

  /** Reference meaning of the change test: some metric present in both moved too far. */
  predicate ChangedBeyond(current: Metrics, last: Metrics, thresholds: Thresholds) {
    exists metric :: metric in current && Exceeds(current, last, thresholds, metric)
  }

  /** The metric loop shared by both `should_publish` implementations: visit the
      new metrics one at a time, skip those the last values lack, and stop at the
      first whose change is strictly above its threshold. */
  method ScanForChange(current: Metrics, last: Metrics, thresholds: Thresholds) returns (changed: bool)
    ensures changed <==> ChangedBeyond(current, last, thresholds)
  {
    var pending := current.Keys;
    while pending != {}
      invariant pending <= current.Keys
      invariant forall metric :: metric in current && metric !in pending ==> !Exceeds(current, last, thresholds, metric)
      decreases pending
    {
      var metric :| metric in pending;
      if metric in last {
        var threshold := ThresholdFor(thresholds, metric);
        if Abs(current[metric] - last[metric]) > threshold {
          assert Exceeds(current, last, thresholds, metric);
          return true;
        }
      }
      pending := pending - {metric};
    }
    return false;
  }

  /** Values equal to the last ones never count as a change when no threshold is negative. */
  lemma UnchangedValuesNeverExceed(values: Metrics, thresholds: Thresholds)
    requires forall metric :: metric in thresholds ==> thresholds[metric] >= 0.0
    ensures !ChangedBeyond(values, values, thresholds)
  {
  }

  /** Metrics missing from the last values can never trigger a change: adding or
      overwriting such metrics in a reading leaves the verdict as it was. */
  lemma OnlySharedMetricsCount(current: Metrics, extra: Metrics, last: Metrics, thresholds: Thresholds)
    requires forall metric :: metric in extra ==> metric !in last
    ensures ChangedBeyond(current + extra, last, thresholds) <==> ChangedBeyond(current, last, thresholds)
  {
  }
}

=== FILE: sensor_manager.dfy ===
/** The sensor manager: the registry of live sensor instances, kept in step with
    the `sensors` list of the device configuration, plus the start/stop flag and
    one pass of the collection loop. Driver `initialize()` and `read()` results are
    oracles; configuration persistence and the collection thread are not modelled. */
module SensorManager {
  import opened Wrappers
  import opened Readings
  import opened SensorTypes
  import opened BaseSensor
  import opened Seqs

  /** One element of the configuration's `sensors` list. */
  datatype ConfigEntry = ConfigEntry(id: string, sensorType: string, config: SensorConfig, addedAt: int)

  /** The device configuration (its cloud section belongs to the publisher). */
  datatype DeviceConfig = DeviceConfig(
    deviceId: string,
    customerId: string,
    location: string,
    updateFrequency: int,
    sensors: seq<ConfigEntry>,
    thresholds: Thresholds)

  /** The configuration written when no configuration file can be loaded. */
  function DefaultConfig(): (c: DeviceConfig)
    ensures c.sensors == [] && c.updateFrequency == 60
    ensures forall metric :: metric in c.thresholds ==> c.thresholds[metric] >= 0.0
    ensures forall sensorType, metric :: sensorType in Registry && metric in Registry[sensorType].metrics ==> metric in c.thresholds
  {
    DeviceConfig("rpi_001", "customer_001", "unknown", 60, [],
      map["temperature" := 0.5, "pressure" := 2.0, "humidity" := 2.0, "altitude" := 5.0])
  }

  /** `sensors` lists the live instances in insertion order, as the Python dict iterates them. */
  datatype Manager = Manager(sensors: seq<Sensor>, config: DeviceConfig, isRunning: bool, hasCallback: bool)

  function NewManager(config: DeviceConfig): (m: Manager)
    ensures m.sensors == [] && m.config == config && !m.isRunning && !m.hasCallback
  {
    Manager([], config, false, false)
  }

  predicate Registered(sensors: seq<Sensor>, id: string) {
    exists i :: 0 <= i < |sensors| && sensors[i].id == id
  }

  /** The dictionary invariant: no id occurs twice. */
  predicate UniqueIds(sensors: seq<Sensor>) {
    forall i, j :: 0 <= i < j < |sensors| ==> sensors[i].id != sensors[j].id
  }

  /** Position of the sensor with id `id`, if registered. */
  function Find(sensors: seq<Sensor>, id: string): (r: Option<nat>)
    ensures r.Some? ==> r.value < |sensors| && sensors[r.value].id == id
    ensures r.None? <==> !Registered(sensors, id)
    decreases |sensors|
  {
    if |sensors| == 0 then None
    else if sensors[0].id == id then Some(0)
    else match Find(sensors[1..], id)
      case None =>
        assert forall i :: 0 < i < |sensors| ==> sensors[i] == sensors[1..][i - 1];
        None
      case Some(i) => Some(i + 1)
  }

  datatype Outcome = Outcome(next: Manager, ok: bool)

  /** The registration half of `add_sensor`: reject a duplicate id, an unknown type
      or a failed hardware initialisation (`initOk`), else add a new sensor instance. */
  function Register(m: Manager, id: string, sensorType: string, config: SensorConfig, initOk: bool): (r: Outcome)
    ensures r.ok <==> !Registered(m.sensors, id) && sensorType in Registry && initOk
    ensures !r.ok ==> r.next == m
    ensures r.ok ==> r.next == m.(sensors := m.sensors + [NewSensor(id, Registry[sensorType].cls, config)])
    ensures UniqueIds(m.sensors) ==> UniqueIds(r.next.sensors)
  {
    if Registered(m.sensors, id) then Outcome(m, false)
    else match GetSensorClass(sensorType)
      case Failure(_) => Outcome(m, false)
      case Success(cls) =>
        if !initOk then Outcome(m, false)
        else Outcome(m.(sensors := m.sensors + [NewSensor(id, cls, config)]), true)
  }

  /** `add_sensor`: register the sensor and, on success only, append one entry for
      it to the end of the configuration's sensor list. */
  function AddSensor(m: Manager, id: string, sensorType: string, config: SensorConfig, initOk: bool, now: int): (r: Outcome)
    ensures Registered(m.sensors, id) ==> r == Outcome(m, false)
    ensures sensorType !in Registry ==> r == Outcome(m, false)
    ensures !initOk ==> r == Outcome(m, false)
    ensures r.ok <==> !Registered(m.sensors, id) && sensorType in Registry && initOk
    ensures r.ok ==>
      && Registered(r.next.sensors, id)
      && r.next.sensors == m.sensors + [NewSensor(id, Registry[sensorType].cls, config)]
      && r.next.config == m.config.(sensors := m.config.sensors + [ConfigEntry(id, sensorType, config, now)])
      && r.next.isRunning == m.isRunning && r.next.hasCallback == m.hasCallback
    ensures UniqueIds(m.sensors) ==> UniqueIds(r.next.sensors)
  {
    var registered := Register(m, id, sensorType, config, initOk);
    if !registered.ok then registered
    else
      var next := registered.next;
      assert next.sensors[|m.sensors|].id == id;
      Outcome(next.(config := next.config.(sensors := next.config.sensors + [ConfigEntry(id, sensorType, config, now)])), true)
  }

  /** The list comprehension of `remove_sensor`: the entries whose id is not `id`, in order. */
  function WithoutEntries(entries: seq<ConfigEntry>, id: string): (r: seq<ConfigEntry>)
    ensures IsSubsequence(r, entries)
    ensures forall e: ConfigEntry :: multiset(r)[e] == if e.id == id then 0 else multiset(entries)[e]
    ensures forall i :: 0 <= i < |r| ==> r[i].id != id && r[i] in entries
    ensures forall e :: e in entries && e.id != id ==> e in r
    ensures (forall i :: 0 <= i < |entries| ==> entries[i].id != id) ==> r == entries
    decreases |entries|
  {
    if |entries| == 0 then []
    else
      var rest := WithoutEntries(entries[1..], id);
      KeepFirstFacts(entries, id, rest);
      KeepFirst(entries[0], id, rest)
  }

  /** One step of that comprehension: keep `e` in front of `rest` unless its id is `id`. */
  function KeepFirst(e: ConfigEntry, id: string, rest: seq<ConfigEntry>): seq<ConfigEntry> {
    if e.id == id then rest else [e] + rest
  }

  lemma KeepFirstFacts(entries: seq<ConfigEntry>, id: string, rest: seq<ConfigEntry>)
    requires |entries| > 0
    requires IsSubsequence(rest, entries[1..])
    requires forall e: ConfigEntry :: multiset(rest)[e] == if e.id == id then 0 else multiset(entries[1..])[e]
    requires (forall i :: 0 <= i < |entries[1..]| ==> entries[1..][i].id != id) ==> rest == entries[1..]
    ensures var r := KeepFirst(entries[0], id, rest);
      && IsSubsequence(r, entries)
      && (forall e: ConfigEntry :: multiset(r)[e] == if e.id == id then 0 else multiset(entries)[e])
      && (forall i :: 0 <= i < |r| ==> r[i].id != id && r[i] in entries)
      && (forall e :: e in entries && e.id != id ==> e in r)
      && ((forall i :: 0 <= i < |entries| ==> entries[i].id != id) ==> r == entries)
  {
    KeepFirstSubsequence(entries, id, rest);
    KeepFirstCounts(entries, id, rest);
    CountsGiveMembership(entries, id, KeepFirst(entries[0], id, rest));
    KeepFirstUnchanged(entries, id, rest);
  }

  /** Keeping or dropping the head entry keeps the result a subsequence of the whole list. */
  lemma KeepFirstSubsequence(entries: seq<ConfigEntry>, id: string, rest: seq<ConfigEntry>)
    requires |entries| > 0
    requires IsSubsequence(rest, entries[1..])
    ensures IsSubsequence(KeepFirst(entries[0], id, rest), entries)
  {
    var r := KeepFirst(entries[0], id, rest);
    assert entries == [entries[0]] + entries[1..];
    if entries[0].id == id {
      SubsequenceOfCons(rest, entries[1..], entries[0]);
    } else {
      assert r[1..] == rest;
    }
  }

  /** A list without the id anywhere comes back whole. */
  lemma KeepFirstUnchanged(entries: seq<ConfigEntry>, id: string, rest: seq<ConfigEntry>)
    requires |entries| > 0
    requires (forall i :: 0 <= i < |entries[1..]| ==> entries[1..][i].id != id) ==> rest == entries[1..]
    ensures (forall i :: 0 <= i < |entries| ==> entries[i].id != id) ==> KeepFirst(entries[0], id, rest) == entries
  {
    if forall i :: 0 <= i < |entries| ==> entries[i].id != id {
      assert forall i :: 0 <= i < |entries[1..]| ==> entries[1..][i].id != id;
      assert entries == [entries[0]] + entries[1..];
    }
  }

  /** Keeping or dropping the head entry carries the per-entry counts of the tail over to the whole list. */
  lemma KeepFirstCounts(entries: seq<ConfigEntry>, id: string, rest: seq<ConfigEntry>)
    requires |entries| > 0
    requires forall e: ConfigEntry :: multiset(rest)[e] == if e.id == id then 0 else multiset(entries[1..])[e]
    ensures forall e: ConfigEntry :: multiset(KeepFirst(entries[0], id, rest))[e] == if e.id == id then 0 else multiset(entries)[e]
  {
    var r := KeepFirst(entries[0], id, rest);
    assert entries == [entries[0]] + entries[1..];
    assert multiset(entries) == multiset{entries[0]} + multiset(entries[1..]);
    if entries[0].id == id {
      assert multiset(r) == multiset(rest);
    } else {
      assert multiset(r) == multiset{entries[0]} + multiset(rest);
    }
  }

  /** Entry counts that drop exactly the entries with id `id` determine membership. */
  lemma CountsGiveMembership(entries: seq<ConfigEntry>, id: string, r: seq<ConfigEntry>)
    requires forall e: ConfigEntry :: multiset(r)[e] == if e.id == id then 0 else multiset(entries)[e]
    ensures forall i :: 0 <= i < |r| ==> r[i].id != id && r[i] in entries
    ensures forall e :: e in entries && e.id != id ==> e in r
  {
    forall i | 0 <= i < |r| ensures r[i].id != id && r[i] in entries {
      assert r[i] in multiset(r);
    }
    forall e | e in entries && e.id != id ensures e in r {
      assert e in multiset(entries);
    }
  }

  /** `remove_sensor`: an unknown id changes nothing; otherwise the instance is
      deleted and so is every configuration entry with that id. */
  function RemoveSensor(m: Manager, id: string): (r: Outcome)
    ensures !Registered(m.sensors, id) ==> r == Outcome(m, false)
    ensures Registered(m.sensors, id) ==>
      && r.ok
      && |r.next.sensors| == |m.sensors| - 1
      && (UniqueIds(m.sensors) ==> !Registered(r.next.sensors, id))
      && (forall s :: s in m.sensors && s.id != id ==> s in r.next.sensors)
      && IsSubsequence(r.next.sensors, m.sensors)
      && r.next.config == m.config.(sensors := WithoutEntries(m.config.sensors, id))
      && r.next.isRunning == m.isRunning && r.next.hasCallback == m.hasCallback
    ensures UniqueIds(m.sensors) ==> UniqueIds(r.next.sensors)
  {
    match Find(m.sensors, id)
    case None => Outcome(m, false)
    case Some(i) =>
      RemoveAt(m.sensors, i);
      Outcome(m.(sensors := m.sensors[..i] + m.sensors[i + 1..], config := m.config.(sensors := WithoutEntries(m.config.sensors, id))), true)
  }

  /** Deleting the sensor at position `i` keeps every other one, in order, and
      preserves unique ids, after which its id is gone. */
  lemma RemoveAt(sensors: seq<Sensor>, i: nat)
    requires i < |sensors|
    ensures var rest := sensors[..i] + sensors[i + 1..];
      && |rest| == |sensors| - 1
      && IsSubsequence(rest, sensors)
      && (forall s :: s in sensors && s.id != sensors[i].id ==> s in rest)
      && (UniqueIds(sensors) ==> UniqueIds(rest) && !Registered(rest, sensors[i].id))
  {
    var rest := sensors[..i] + sensors[i + 1..];
    DeleteAtIsSubsequence(sensors, i);
    assert forall k :: 0 <= k < |rest| ==> rest[k] == sensors[if k < i then k else k + 1];
    forall s | s in sensors && s.id != sensors[i].id ensures s in rest {
      var k :| 0 <= k < |sensors| && sensors[k] == s;
      assert rest[if k < i then k else k - 1] == s;
    }
  }

  /** Removing a sensor that was just added restores the manager exactly, provided
      the configuration held no stale entry with that id. */
  lemma RemoveUndoesAdd(m: Manager, id: string, sensorType: string, config: SensorConfig, initOk: bool, now: int)
    requires UniqueIds(m.sensors)
    requires forall i :: 0 <= i < |m.config.sensors| ==> m.config.sensors[i].id != id
    requires AddSensor(m, id, sensorType, config, initOk, now).ok
    ensures RemoveSensor(AddSensor(m, id, sensorType, config, initOk, now).next, id) == Outcome(m, true)
  {
    var added := AddSensor(m, id, sensorType, config, initOk, now).next;
    assert added.sensors[|m.sensors|].id == id;
    assert Find(added.sensors, id) == Some(|m.sensors|);
    assert added.sensors[..|m.sensors|] + added.sensors[|m.sensors| + 1..] == m.sensors;
    WithoutEntriesAppend(m.config.sensors, ConfigEntry(id, sensorType, config, now), id);
  }

  /** Dropping `id` from a list ending in an entry for `id` drops that entry. */
  lemma {:induction false} WithoutEntriesAppend(entries: seq<ConfigEntry>, e: ConfigEntry, id: string)
    requires e.id == id
    ensures WithoutEntries(entries + [e], id) == WithoutEntries(entries, id)
    decreases |entries|
  {
    if |entries| == 0 {
      assert [e][1..] == [];
    } else {
      assert (entries + [e])[1..] == entries[1..] + [e];
      WithoutEntriesAppend(entries[1..], e, id);
    }
  }

  // ---------------------------------------------------------------------------
  // Reading

  /** Some registered sensor with this id is active. */
  predicate ActiveSensor(sensors: seq<Sensor>, id: string) {
    exists i :: 0 <= i < |sensors| && sensors[i].id == id && sensors[i].isActive
  }

  datatype ReadOne = ReadOne(next: Manager, reading: Option<Reading>)

  /** `read_sensor`: `None` (and no change) for an unknown or inactive id, otherwise
      that sensor's `read_with_metadata` with the driver outcome `outcome`. */
  function ReadSensor(m: Manager, id: string, outcome: ReadOutcome, now: int): (r: ReadOne)
    ensures !ActiveSensor(m.sensors, id) ==> r == ReadOne(m, None)
    ensures UniqueIds(m.sensors) && ActiveSensor(m.sensors, id) ==> r.reading.Some?
    ensures r.reading.Some? ==>
      && r.reading.value.sensorId == id && r.reading.value.timestamp == now
      && (r.reading.value.status == Ok <==> outcome.Values?)
      && (outcome.Values? ==> r.reading.value.values == outcome.values)
    ensures UniqueIds(m.sensors) ==> forall i :: 0 <= i < |m.sensors| && m.sensors[i].id == id && m.sensors[i].isActive ==>
      && r.reading == Some(ReadWithMetadata(m.sensors[i], outcome, now).reading)
      && r.next.sensors == m.sensors[i := ReadWithMetadata(m.sensors[i], outcome, now).sensor]
    ensures |r.next.sensors| == |m.sensors|
    ensures forall k :: 0 <= k < |m.sensors| ==> r.next.sensors[k].id == m.sensors[k].id
    ensures r.next.config == m.config && r.next.isRunning == m.isRunning && r.next.hasCallback == m.hasCallback
  {
    match Find(m.sensors, id)
    case None => ReadOne(m, None)
    case Some(i) =>
      if !m.sensors[i].isActive then ReadOne(m, None)
      else
        var result := ReadWithMetadata(m.sensors[i], outcome, now);
        ReadOne(m.(sensors := m.sensors[i := result.sensor]), Some(result.reading))
  }

  /** The sensor ids of a list of readings, in order. */
  function ReadingIds(readings: seq<Reading>): (ids: seq<string>)
    ensures |ids| == |readings|
    ensures forall j :: 0 <= j < |readings| ==> ids[j] == readings[j].sensorId
  {
    seq(|readings|, j requires 0 <= j < |readings| => readings[j].sensorId)
  }

  /** The ids of the active sensors, in registry order. */
  function ActiveIds(sensors: seq<Sensor>): seq<string>
    decreases |sensors|
  {
    if |sensors| == 0 then []
    else if sensors[0].isActive then [sensors[0].id] + ActiveIds(sensors[1..])
    else ActiveIds(sensors[1..])
  }

  datatype Collected = Collected(sensors: seq<Sensor>, readings: seq<Reading>)

  /** `reading` is what reading some active sensor of `sensors` with its driver outcome gives. */
  predicate ReadByActive(sensors: seq<Sensor>, driver: string -> ReadOutcome, now: int, reading: Reading) {
    exists k :: 0 <= k < |sensors| && sensors[k].isActive && reading == ReadWithMetadata(sensors[k], driver(sensors[k].id), now).reading
  }

  lemma ReadByActiveTail(sensors: seq<Sensor>, driver: string -> ReadOutcome, now: int, reading: Reading)
    requires |sensors| > 0 && ReadByActive(sensors[1..], driver, now, reading)
    ensures ReadByActive(sensors, driver, now, reading)
  {
    var k :| 0 <= k < |sensors[1..]| && sensors[1..][k].isActive && reading == ReadWithMetadata(sensors[1..][k], driver(sensors[1..][k].id), now).reading;
    assert sensors[k + 1] == sensors[1..][k];
  }

  /** What the loop of `read_all_sensors` promises about the sensors it leaves and
      the readings it produces, for the pass `c` over `sensors`. */
  predicate SensorsAfterPass(sensors: seq<Sensor>, driver: string -> ReadOutcome, now: int, c: Collected) {
    && |c.sensors| == |sensors|
    && (forall k :: 0 <= k < |sensors| ==>
          c.sensors[k] == if sensors[k].isActive then ReadWithMetadata(sensors[k], driver(sensors[k].id), now).sensor else sensors[k])
  }

  predicate ReadingsOfPass(sensors: seq<Sensor>, driver: string -> ReadOutcome, now: int, c: Collected) {
    && (forall j :: 0 <= j < |c.readings| ==>
          && c.readings[j].timestamp == now && c.readings[j].stamp == None
          && (c.readings[j].status == Ok <==> driver(c.readings[j].sensorId).Values?))
    && (forall j :: 0 <= j < |c.readings| ==> ReadByActive(sensors, driver, now, c.readings[j]))
  }

  /** One iteration of that loop: read `s` if it is active, in front of the pass `rest`. */
  function ReadFirst(s: Sensor, driver: string -> ReadOutcome, now: int, rest: Collected): Collected {
    if s.isActive then
      var result := ReadWithMetadata(s, driver(s.id), now);
      Collected([result.sensor] + rest.sensors, [result.reading] + rest.readings)
    else Collected([s] + rest.sensors, rest.readings)
  }

  lemma SensorsAfterFirst(sensors: seq<Sensor>, driver: string -> ReadOutcome, now: int, rest: Collected)
    requires |sensors| > 0
    requires SensorsAfterPass(sensors[1..], driver, now, rest)
    ensures SensorsAfterPass(sensors, driver, now, ReadFirst(sensors[0], driver, now, rest))
  {
    var c := ReadFirst(sensors[0], driver, now, rest);
    assert forall k :: 0 < k < |sensors| ==> sensors[k] == sensors[1..][k - 1] && c.sensors[k] == rest.sensors[k - 1];
  }

  lemma IdsAfterFirst(sensors: seq<Sensor>, driver: string -> ReadOutcome, now: int, rest: Collected)
    requires |sensors| > 0
    requires ReadingIds(rest.readings) == ActiveIds(sensors[1..])
    ensures ReadingIds(ReadFirst(sensors[0], driver, now, rest).readings) == ActiveIds(sensors)
  {
    var c := ReadFirst(sensors[0], driver, now, rest);
    if sensors[0].isActive {
      assert ReadingIds(c.readings) == [sensors[0].id] + ReadingIds(rest.readings);
    }
  }

  lemma ReadingsAfterFirst(sensors: seq<Sensor>, driver: string -> ReadOutcome, now: int, rest: Collected)
    requires |sensors| > 0
    requires ReadingsOfPass(sensors[1..], driver, now, rest)
    ensures ReadingsOfPass(sensors, driver, now, ReadFirst(sensors[0], driver, now, rest))
  {
    var c := ReadFirst(sensors[0], driver, now, rest);
    forall j | 0 <= j < |c.readings|
      ensures ReadByActive(sensors, driver, now, c.readings[j])
      ensures c.readings[j].timestamp == now && c.readings[j].stamp == None
      ensures c.readings[j].status == Ok <==> driver(c.readings[j].sensorId).Values?
    {
      if sensors[0].isActive && j == 0 {
        assert c.readings[0] == ReadWithMetadata(sensors[0], driver(sensors[0].id), now).reading;
      } else {
        var j' := if sensors[0].isActive then j - 1 else j;
        assert c.readings[j] == rest.readings[j'];
        ReadByActiveTail(sensors, driver, now, rest.readings[j']);
      }
    }
  }

  /** The loop of `read_all_sensors` over the registry: each active sensor is read
      once, with the driver outcome `driver` gives for its id; inactive ones are skipped. */
  function ReadEach(sensors: seq<Sensor>, driver: string -> ReadOutcome, now: int): (c: Collected)
    ensures |c.sensors| == |sensors|
    ensures forall k :: 0 <= k < |sensors| ==>
      c.sensors[k] == if sensors[k].isActive then ReadWithMetadata(sensors[k], driver(sensors[k].id), now).sensor else sensors[k]
    ensures ReadingIds(c.readings) == ActiveIds(sensors)
    ensures forall j :: 0 <= j < |c.readings| ==>
      && c.readings[j].timestamp == now && c.readings[j].stamp == None
      && (c.readings[j].status == Ok <==> driver(c.readings[j].sensorId).Values?)
    ensures forall j :: 0 <= j < |c.readings| ==> ReadByActive(sensors, driver, now, c.readings[j])
    decreases |sensors|
  {
    if |sensors| == 0 then Collected([], [])
    else
      var rest := ReadEach(sensors[1..], driver, now);
      SensorsAfterFirst(sensors, driver, now, rest);
      IdsAfterFirst(sensors, driver, now, rest);
      ReadingsAfterFirst(sensors, driver, now, rest);
      ReadFirst(sensors[0], driver, now, rest)
  }

  datatype ReadAll = ReadAll(next: Manager, readings: seq<Reading>)

  /** `read_all_sensors`: one reading per active sensor, in registry order. */
  function ReadAllSensors(m: Manager, driver: string -> ReadOutcome, now: int): (r: ReadAll)
    ensures ReadingIds(r.readings) == ActiveIds(m.sensors)
    ensures |r.next.sensors| == |m.sensors|
    ensures forall k :: 0 <= k < |m.sensors| ==>
      r.next.sensors[k] == if m.sensors[k].isActive then ReadWithMetadata(m.sensors[k], driver(m.sensors[k].id), now).sensor else m.sensors[k]
    ensures forall k :: 0 <= k < |m.sensors| ==> r.next.sensors[k].id == m.sensors[k].id && r.next.sensors[k].isActive == m.sensors[k].isActive
    ensures forall j :: 0 <= j < |r.readings| ==> ReadByActive(m.sensors, driver, now, r.readings[j])
    ensures forall j :: 0 <= j < |r.readings| ==> r.readings[j].timestamp == now && r.readings[j].stamp == None
    ensures r.next.config == m.config && r.next.isRunning == m.isRunning && r.next.hasCallback == m.hasCallback
  {
    var c := ReadEach(m.sensors, driver, now);
    ReadAll(m.(sensors := c.sensors), c.readings)
  }

  /** An active sensor is read by `read_all_sensors`; an inactive one is not. */
  lemma {:induction false} ActiveIdsAreTheActiveSensors(sensors: seq<Sensor>, id: string)
    ensures id in ActiveIds(sensors) <==> ActiveSensor(sensors, id)
    decreases |sensors|
  {
    if |sensors| > 0 {
      ActiveIdsAreTheActiveSensors(sensors[1..], id);
      assert forall k :: 0 < k < |sensors| ==> sensors[k] == sensors[1..][k - 1];
      if ActiveSensor(sensors, id) {
        var k :| 0 <= k < |sensors| && sensors[k].id == id && sensors[k].isActive;
        if k > 0 {
          assert ActiveSensor(sensors[1..], id) by {
            assert sensors[1..][k - 1].id == id;
          }
        }
      }
      if ActiveSensor(sensors[1..], id) {
        var k :| 0 <= k < |sensors[1..]| && sensors[1..][k].id == id && sensors[1..][k].isActive;
        assert sensors[k + 1].id == id;
      }
    }
  }

  // ---------------------------------------------------------------------------
  // Collection

  /** `set_data_callback`: `present` says whether the callback passed is a function
      or `None`, which clears it. */
  function SetDataCallback(m: Manager, present: bool): (r: Manager)
    ensures r.hasCallback == present && r.(hasCallback := m.hasCallback) == m
  {
    m.(hasCallback := present)
  }

  /** `start_collection`: a no-op while running, else sets the running flag. */
  function StartCollection(m: Manager): (r: Manager)
    ensures m.isRunning ==> r == m
    ensures r.isRunning && r.(isRunning := m.isRunning) == m
  {
    if m.isRunning then m else m.(isRunning := true)
  }

  /** `stop_collection`: a no-op while stopped, else clears the running flag. */
  function StopCollection(m: Manager): (r: Manager)
    ensures !m.isRunning ==> r == m
    ensures !r.isRunning && r.(isRunning := m.isRunning) == m
  {
    if !m.isRunning then m else m.(isRunning := false)
  }

  /** Stopping undoes starting a stopped manager, and starting twice is starting once. */
  lemma StartStopRoundTrip(m: Manager)
    ensures !m.isRunning ==> StopCollection(StartCollection(m)) == m
    ensures StartCollection(StartCollection(m)) == StartCollection(m)
    ensures StopCollection(StopCollection(m)) == StopCollection(m)
  {
  }

  function DeviceStamp(config: DeviceConfig): Stamp {
    Stamp(config.deviceId, config.customerId, config.location)
  }

  /** Add the device metadata to every reading. */
  function StampAll(readings: seq<Reading>, stamp: Stamp): (r: seq<Reading>)
    ensures |r| == |readings|
    ensures forall j :: 0 <= j < |readings| ==> r[j] == readings[j].(stamp := Some(stamp))
  {
    seq(|readings|, j requires 0 <= j < |readings| => readings[j].(stamp := Some(stamp)))
  }

  datatype Collection = Collection(next: Manager, readings: seq<Reading>, callbackInvoked: bool)

  /** One iteration of `_collection_loop` (the loop only iterates while running):
      read all sensors, stamp every reading with the device, customer and location
      of the configuration, and hand them to the callback when one is set and
      there is at least one reading. */
  function CollectOnce(m: Manager, driver: string -> ReadOutcome, now: int): (r: Collection)
    ensures !m.isRunning ==> r == Collection(m, [], false)
    ensures m.isRunning ==>
      && ReadingIds(r.readings) == ActiveIds(m.sensors)
      && |r.readings| == |ReadAllSensors(m, driver, now).readings|
      && (forall j :: 0 <= j < |r.readings| ==> r.readings[j].stamp == Some(DeviceStamp(m.config)))
      && (forall j :: 0 <= j < |r.readings| ==> r.readings[j].(stamp := None) == ReadAllSensors(m, driver, now).readings[j])
      && (r.callbackInvoked <==> m.hasCallback && |ActiveIds(m.sensors)| > 0)
      && r.next == ReadAllSensors(m, driver, now).next
  {
    if !m.isRunning then Collection(m, [], false)
    else
      var all := ReadAllSensors(m, driver, now);
      var stamped := StampAll(all.readings, DeviceStamp(m.config));
      assert ReadingIds(stamped) == ReadingIds(all.readings);
      Collection(all.next, stamped, m.hasCallback && |stamped| > 0)
  }

  /** With unique ids, the reading `read_all_sensors` reports under a sensor's id
      is the reading of that sensor. */
  lemma ReadAllReadingOf(m: Manager, driver: string -> ReadOutcome, now: int, i: nat)
    requires UniqueIds(m.sensors)
    requires i < |m.sensors|
    ensures var all := ReadAllSensors(m, driver, now);
      forall j :: 0 <= j < |all.readings| && all.readings[j].sensorId == m.sensors[i].id ==>
        all.readings[j] == ReadWithMetadata(m.sensors[i], driver(m.sensors[i].id), now).reading
  {
    var all := ReadAllSensors(m, driver, now);
    forall j | 0 <= j < |all.readings| && all.readings[j].sensorId == m.sensors[i].id
      ensures all.readings[j] == ReadWithMetadata(m.sensors[i], driver(m.sensors[i].id), now).reading
    {
      var reading := all.readings[j];
      assert ReadByActive(m.sensors, driver, now, reading);
      var k :| 0 <= k < |m.sensors| && m.sensors[k].isActive
        && reading == ReadWithMetadata(m.sensors[k], driver(m.sensors[k].id), now).reading;
      assert reading.sensorId == m.sensors[k].id;
      assert forall a, b :: 0 <= a < |m.sensors| && 0 <= b < |m.sensors| && m.sensors[a].id == m.sensors[b].id ==> a == b;
      assert k == i;
    }
  }

  /** Reading one active sensor by id agrees with the full pass: the same reading
      appears among the pass's readings and the sensor is left in the same state. */
  lemma ReadSensorAgreesWithReadAll(m: Manager, id: string, driver: string -> ReadOutcome, now: int)
    requires UniqueIds(m.sensors)
    requires ActiveSensor(m.sensors, id)
    ensures var one := ReadSensor(m, id, driver(id), now);
      var all := ReadAllSensors(m, driver, now);
      && one.reading.Some?
      && one.reading.value in all.readings
      && (forall j :: 0 <= j < |all.readings| && all.readings[j].sensorId == id ==> all.readings[j] == one.reading.value)
      && (forall k :: 0 <= k < |m.sensors| && m.sensors[k].id == id ==> one.next.sensors[k] == all.next.sensors[k])
  {
    ReadSensorReadingInPass(m, id, driver, now);
    ReadSensorStateInPass(m, id, driver, now);
  }

  /** The reading of one active sensor by id is the one the full pass reports under its id. */
  lemma ReadSensorReadingInPass(m: Manager, id: string, driver: string -> ReadOutcome, now: int)
    requires UniqueIds(m.sensors)
    requires ActiveSensor(m.sensors, id)
    ensures var one := ReadSensor(m, id, driver(id), now);
      var all := ReadAllSensors(m, driver, now);
      && one.reading.Some?
      && one.reading.value in all.readings
      && (forall j :: 0 <= j < |all.readings| && all.readings[j].sensorId == id ==> all.readings[j] == one.reading.value)
  {
    var one := ReadSensor(m, id, driver(id), now);
    var all := ReadAllSensors(m, driver, now);
    var i :| 0 <= i < |m.sensors| && m.sensors[i].id == id && m.sensors[i].isActive;
    var expected := ReadWithMetadata(m.sensors[i], driver(id), now);
    assert one.reading == Some(expected.reading);
    ReadAllReadingOf(m, driver, now, i);
    var j := PassReadsActive(m, id, driver, now);
    assert all.readings[j] == expected.reading;
  }

  /** The full pass reports a reading under the id of every active sensor. */
  lemma PassReadsActive(m: Manager, id: string, driver: string -> ReadOutcome, now: int) returns (j: nat)
    requires ActiveSensor(m.sensors, id)
    ensures j < |ReadAllSensors(m, driver, now).readings| && ReadAllSensors(m, driver, now).readings[j].sensorId == id
  {
    var all := ReadAllSensors(m, driver, now);
    ActiveIdsAreTheActiveSensors(m.sensors, id);
    assert id in ReadingIds(all.readings);
    j :| 0 <= j < |all.readings| && ReadingIds(all.readings)[j] == id;
  }

  /** Reading one active sensor by id leaves it in the state the full pass leaves it in. */
  lemma ReadSensorStateInPass(m: Manager, id: string, driver: string -> ReadOutcome, now: int)
    requires UniqueIds(m.sensors)
    requires ActiveSensor(m.sensors, id)
    ensures var one := ReadSensor(m, id, driver(id), now);
      var all := ReadAllSensors(m, driver, now);
      forall k :: 0 <= k < |m.sensors| && m.sensors[k].id == id ==> one.next.sensors[k] == all.next.sensors[k]
  {
    var one := ReadSensor(m, id, driver(id), now);
    var all := ReadAllSensors(m, driver, now);
    var i :| 0 <= i < |m.sensors| && m.sensors[i].id == id && m.sensors[i].isActive;
    var expected := ReadWithMetadata(m.sensors[i], driver(id), now);
    assert one.next.sensors == m.sensors[i := expected.sensor];
    forall k | 0 <= k < |m.sensors| && m.sensors[k].id == id ensures one.next.sensors[k] == all.next.sensors[k] {
      assert k == i;
    }
  }

  /** The manager after one collection step per driver, step `i` at time `clock(i)`. */
  function CollectRun(m: Manager, drivers: seq<string -> ReadOutcome>, clock: nat -> int): (r: Manager)
    ensures |r.sensors| == |m.sensors|
    ensures forall k :: 0 <= k < |m.sensors| ==> r.sensors[k].id == m.sensors[k].id && r.sensors[k].isActive == m.sensors[k].isActive
    ensures r.config == m.config && r.isRunning == m.isRunning && r.hasCallback == m.hasCallback
    decreases |drivers|
  {
    if |drivers| == 0 then m
    else
      var n := |drivers| - 1;
      CollectOnce(CollectRun(m, drivers[..n], clock), drivers[n], clock(n)).next
  }

  /** The outcomes the drivers of a run give for one sensor id, in order. */
  function SensorOutcomes(drivers: seq<string -> ReadOutcome>, id: string): (outcomes: seq<ReadOutcome>)
    ensures |outcomes| == |drivers|
    ensures forall i :: 0 <= i < |drivers| ==> outcomes[i] == drivers[i](id)
  {
    seq(|drivers|, i requires 0 <= i < |drivers| => drivers[i](id))
  }

  /** Over a run of collection steps each active sensor goes through exactly the
      series of reads its own driver outcomes describe; inactive sensors are untouched. */
  lemma {:induction false} CollectRunReadsEachSensor(m: Manager, drivers: seq<string -> ReadOutcome>, clock: nat -> int, k: nat)
    requires m.isRunning
    requires k < |m.sensors|
    ensures CollectRun(m, drivers, clock).sensors[k]
         == if m.sensors[k].isActive then ReadSeries(m.sensors[k], SensorOutcomes(drivers, m.sensors[k].id), clock) else m.sensors[k]
    decreases |drivers|
  {
    if |drivers| > 0 {
      var n := |drivers| - 1;
      var id := m.sensors[k].id;
      var prev := CollectRun(m, drivers[..n], clock);
      var outcomes := SensorOutcomes(drivers, id);
      CollectRunReadsEachSensor(m, drivers[..n], clock, k);
      assert SensorOutcomes(drivers[..n], id) == outcomes[..n];
      CollectStepAt(prev, drivers[n], clock(n), k);
      ReadSeriesLast(m.sensors[k], outcomes, clock);
    }
  }

  /** One collection step changes a sensor exactly as reading it through the step's driver does. */
  lemma CollectStepAt(m: Manager, driver: string -> ReadOutcome, now: int, k: nat)
    requires m.isRunning
    requires k < |m.sensors|
    ensures CollectOnce(m, driver, now).next.sensors[k]
         == if m.sensors[k].isActive then ReadWithMetadata(m.sensors[k], driver(m.sensors[k].id), now).sensor else m.sensors[k]
  {
  }

  lemma ReadSeriesLast(s: Sensor, outcomes: seq<ReadOutcome>, clock: nat -> int)
    requires |outcomes| > 0
    ensures ReadSeries(s, outcomes, clock)
         == ReadWithMetadata(ReadSeries(s, outcomes[..|outcomes| - 1], clock), outcomes[|outcomes| - 1], clock(|outcomes| - 1)).sensor
  {
  }

  /** Over a run of collection steps an active sensor's error count is the number of
      failed reads since its last successful one. */
  lemma CollectRunErrorCount(m: Manager, drivers: seq<string -> ReadOutcome>, clock: nat -> int, k: nat)
    requires m.isRunning
    requires k < |m.sensors| && m.sensors[k].isActive
    ensures var outcomes := SensorOutcomes(drivers, m.sensors[k].id);
      CollectRun(m, drivers, clock).sensors[k].errorCount
        == (if HasSuccess(outcomes) then 0 else m.sensors[k].errorCount) + TrailingFailures(outcomes)
  {
    CollectRunReadsEachSensor(m, drivers, clock, k);
    ErrorCountIsConsecutiveFailures(m.sensors[k], SensorOutcomes(drivers, m.sensors[k].id), clock);
  }

  // ---------------------------------------------------------------------------
  // Start-up from the stored configuration

  /** Ids that appear in the configuration's sensor list but are not registered. */
  function Unregistered(m: Manager): set<string> {
    set e | e in m.config.sensors && !Registered(m.sensors, e.id) :: e.id
  }

  /** A successful `add_sensor` of an entry's id shrinks the set of unregistered ids. */
  lemma AddShrinksUnregistered(m: Manager, i: nat, initOk: bool, now: int)
    requires i < |m.config.sensors|
    ensures var e := m.config.sensors[i];
      var added := AddSensor(m, e.id, e.sensorType, e.config, initOk, now);
      && (added.ok ==> Unregistered(added.next) < Unregistered(m))
      && (!added.ok ==> added.next == m)
  {
    var e := m.config.sensors[i];
    var added := AddSensor(m, e.id, e.sensorType, e.config, initOk, now);
    var next := added.next;
    if added.ok {
      forall x | x in Unregistered(next) ensures x in Unregistered(m) {
        var f :| f in next.config.sensors && !Registered(next.sensors, f.id) && f.id == x;
        assert f in m.config.sensors || f.id == e.id;
        assert !Registered(m.sensors, f.id) by {
          forall k | 0 <= k < |m.sensors| ensures m.sensors[k].id != f.id {
            assert next.sensors[k] == m.sensors[k];
          }
        }
      }
      assert e in m.config.sensors;
      assert e.id in Unregistered(m);
    }
  }

  /** `initialize_from_config` AS WRITTEN: the loop walks the configuration's sensor
      list by position while `add_sensor` appends to that same list, so each
      successful add also appends a second entry for the same sensor, which the
      loop later reaches and rejects as a duplicate. `initOk(i)` is the hardware
      initialisation result for the entry at position `i`. Every stored sensor with
      a known type whose hardware initialises is brought up, but the stored list
      also grows by one entry per sensor brought up. */
  function InitializeAsWritten(m: Manager, i: nat, initOk: nat -> bool, now: int): (r: Manager)
    ensures UniqueIds(m.sensors) ==> UniqueIds(r.sensors)
    ensures |r.sensors| >= |m.sensors| && r.sensors[..|m.sensors|] == m.sensors
    ensures |r.config.sensors| >= |m.config.sensors| && r.config.sensors[..|m.config.sensors|] == m.config.sensors
    ensures |r.config.sensors| - |m.config.sensors| == |r.sensors| - |m.sensors|
    ensures forall k :: i <= k < |m.config.sensors| && m.config.sensors[k].sensorType in Registry && initOk(k) ==>
      Registered(r.sensors, m.config.sensors[k].id)
    ensures r == m.(sensors := r.sensors, config := m.config.(sensors := r.config.sensors))
    ensures AppendsInPairs(m, r, now)
    decreases Unregistered(m), |m.config.sensors| - i
  {
    if i >= |m.config.sensors| then m
    else
      var e := m.config.sensors[i];
      var added := AddSensor(m, e.id, e.sensorType, e.config, initOk(i), now);
      AddShrinksUnregistered(m, i, initOk(i), now);
      // A rejected `add_sensor` returns `m` itself, so this covers both outcomes.
      var r := InitializeAsWritten(added.next, i + 1, initOk, now);
      assert LoopFacts(added.next, r, i + 1, initOk, now);
      LoopStep(m, r, i, initOk, now);
      r
  }

  /** What the start-up loop from position `i` guarantees about the manager `r` it
      leaves, given the manager `m` it started from (the ensures of `InitializeAsWritten`). */
  predicate LoopFacts(m: Manager, r: Manager, i: nat, initOk: nat -> bool, now: int) {
    && |r.sensors| >= |m.sensors| && r.sensors[..|m.sensors|] == m.sensors
    && |r.config.sensors| >= |m.config.sensors| && r.config.sensors[..|m.config.sensors|] == m.config.sensors
    && |r.config.sensors| - |m.config.sensors| == |r.sensors| - |m.sensors|
    && (forall k :: i <= k < |m.config.sensors| && m.config.sensors[k].sensorType in Registry && initOk(k) ==>
          Registered(r.sensors, m.config.sensors[k].id))
    && r == m.(sensors := r.sensors, config := m.config.(sensors := r.config.sensors))
    && AppendsInPairs(m, r, now)
  }

  /** One `add_sensor` call at position `i` followed by the rest of the loop keeps the loop's facts. */
  lemma LoopStep(m: Manager, r: Manager, i: nat, initOk: nat -> bool, now: int)
    requires i < |m.config.sensors|
    requires var e := m.config.sensors[i];
      LoopFacts(AddSensor(m, e.id, e.sensorType, e.config, initOk(i), now).next, r, i + 1, initOk, now)
    ensures LoopFacts(m, r, i, initOk, now)
  {
    var e := m.config.sensors[i];
    var next := AddSensor(m, e.id, e.sensorType, e.config, initOk(i), now).next;
    StartStepFacts(m, i, initOk, now);
    ExtendsThroughStep(m, next, r, i, initOk);
    PairsCompose(m, next, r, now);
  }

  /** Each sensor `r` holds beyond those of `m` was built from the stored entry `r`
      appended at the same offset beyond the stored list of `m`: an entry of known
      type, stamped `now`. */
  predicate AppendsInPairs(m: Manager, r: Manager, now: int) {
    && |m.sensors| <= |r.sensors|
    && |m.config.sensors| <= |r.config.sensors|
    && |r.config.sensors| - |m.config.sensors| == |r.sensors| - |m.sensors|
    && forall q :: |m.config.sensors| <= q < |r.config.sensors| ==>
         && r.config.sensors[q].sensorType in Registry && r.config.sensors[q].addedAt == now
         && r.sensors[|m.sensors| + (q - |m.config.sensors|)] == EntrySensor(r.config.sensors[q])
  }

  /** The fresh sensor `add_sensor` builds for a stored entry of known type. */
  function EntrySensor(e: ConfigEntry): Sensor
    requires e.sensorType in Registry
  {
    NewSensor(e.id, Registry[e.sensorType].cls, e.config)
  }

  /** Pairs appended by one step and by the rest of the loop line up as pairs appended by both. */
  lemma PairsCompose(m: Manager, next: Manager, r: Manager, now: int)
    requires AppendsInPairs(m, next, now) && AppendsInPairs(next, r, now)
    requires next.sensors[..|m.sensors|] == m.sensors && next.config.sensors[..|m.config.sensors|] == m.config.sensors
    requires r.sensors[..|next.sensors|] == next.sensors && r.config.sensors[..|next.config.sensors|] == next.config.sensors
    ensures AppendsInPairs(m, r, now)
  {
    forall q | |m.config.sensors| <= q < |r.config.sensors|
      ensures && r.config.sensors[q].sensorType in Registry && r.config.sensors[q].addedAt == now
        && r.sensors[|m.sensors| + (q - |m.config.sensors|)] == EntrySensor(r.config.sensors[q])
    {
      var p := |m.sensors| + (q - |m.config.sensors|);
      if q < |next.config.sensors| {
        assert next.sensors[p] == EntrySensor(next.config.sensors[q]);
        assert r.sensors[p] == r.sensors[..|next.sensors|][p];
        assert r.config.sensors[q] == r.config.sensors[..|next.config.sensors|][q];
      } else {
        assert p == |next.sensors| + (q - |next.config.sensors|);
      }
    }
  }

  /** The facts the start-up loop keeps, carried from the step at position `i`
      (which took `m` to `next`) and the rest of the loop (which took `next` to `r`). */
  lemma ExtendsThroughStep(m: Manager, next: Manager, r: Manager, i: nat, initOk: nat -> bool)
    requires i < |m.config.sensors|
    requires |next.sensors| >= |m.sensors| && next.sensors[..|m.sensors|] == m.sensors
    requires |next.config.sensors| >= |m.config.sensors| && next.config.sensors[..|m.config.sensors|] == m.config.sensors
    requires |next.config.sensors| - |m.config.sensors| == |next.sensors| - |m.sensors|
    requires m.config.sensors[i].sensorType in Registry && initOk(i) ==> Registered(next.sensors, m.config.sensors[i].id)
    requires |r.sensors| >= |next.sensors| && r.sensors[..|next.sensors|] == next.sensors
    requires |r.config.sensors| >= |next.config.sensors| && r.config.sensors[..|next.config.sensors|] == next.config.sensors
    requires |r.config.sensors| - |next.config.sensors| == |r.sensors| - |next.sensors|
    requires forall k :: i + 1 <= k < |next.config.sensors| && next.config.sensors[k].sensorType in Registry && initOk(k) ==>
      Registered(r.sensors, next.config.sensors[k].id)
    requires next == m.(sensors := next.sensors, config := m.config.(sensors := next.config.sensors))
    requires r == next.(sensors := r.sensors, config := next.config.(sensors := r.config.sensors))
    ensures |r.sensors| >= |m.sensors| && r.sensors[..|m.sensors|] == m.sensors
    ensures |r.config.sensors| >= |m.config.sensors| && r.config.sensors[..|m.config.sensors|] == m.config.sensors
    ensures |r.config.sensors| - |m.config.sensors| == |r.sensors| - |m.sensors|
    ensures forall k :: i <= k < |m.config.sensors| && m.config.sensors[k].sensorType in Registry && initOk(k) ==>
      Registered(r.sensors, m.config.sensors[k].id)
    ensures r == m.(sensors := r.sensors, config := m.config.(sensors := r.config.sensors))
  {
    PrefixTransitive(m.sensors, next.sensors, r.sensors);
    PrefixTransitive(m.config.sensors, next.config.sensors, r.config.sensors);
    forall k | i <= k < |m.config.sensors| && m.config.sensors[k].sensorType in Registry && initOk(k)
      ensures Registered(r.sensors, m.config.sensors[k].id)
    {
      assert next.config.sensors[k] == m.config.sensors[k];
      if k == i {
        PrefixKeepsRegistered(next.sensors, r.sensors, m.config.sensors[i].id);
      }
    }
  }

  /** A registry that extends another keeps every id the other has. */
  lemma PrefixKeepsRegistered(a: seq<Sensor>, b: seq<Sensor>, id: string)
    requires |a| <= |b| && b[..|a|] == a
    requires Registered(a, id)
    ensures Registered(b, id)
  {
    var j :| 0 <= j < |a| && a[j].id == id;
    assert b[j] == b[..|a|][j];
  }

  /** One `add_sensor` call of the start-up loop, for the entry at position `i`:
      it only appends, and it appends a stored entry exactly when it appends a sensor. */
  lemma StartStepFacts(m: Manager, i: nat, initOk: nat -> bool, now: int)
    requires i < |m.config.sensors|
    ensures var e := m.config.sensors[i];
      var next := AddSensor(m, e.id, e.sensorType, e.config, initOk(i), now).next;
      && |next.sensors| >= |m.sensors| && next.sensors[..|m.sensors|] == m.sensors
      && |next.config.sensors| >= |m.config.sensors| && next.config.sensors[..|m.config.sensors|] == m.config.sensors
      && |next.config.sensors| - |m.config.sensors| == |next.sensors| - |m.sensors|
      && (e.sensorType in Registry && initOk(i) ==> Registered(next.sensors, e.id))
      && next == m.(sensors := next.sensors, config := m.config.(sensors := next.config.sensors))
      && AppendsInPairs(m, next, now)
  {
    var e := m.config.sensors[i];
    var added := AddSensor(m, e.id, e.sensorType, e.config, initOk(i), now);
    if added.ok {
      assert added.next.config.sensors[|m.config.sensors|] == ConfigEntry(e.id, e.sensorType, e.config, now);
      assert added.next.sensors[|m.sensors|].id == e.id;
      assert added.next.sensors[..|m.sensors|] == m.sensors;
      assert added.next.config.sensors[..|m.config.sensors|] == m.config.sensors;
    }
  }

  /** Every start-up of the application as written, from a fresh manager, appends
      one stored entry for each sensor it brings up, on top of the stored list, and
      changes nothing else in the configuration. */
  lemma RestartGrowsStoredList(config: DeviceConfig, initOk: nat -> bool, now: int)
    ensures var r := InitializeAsWritten(NewManager(config), 0, initOk, now);
      && |r.config.sensors| == |config.sensors| + |r.sensors|
      && r.config.sensors[..|config.sensors|] == config.sensors
      && r.config.(sensors := config.sensors) == config && !r.isRunning && !r.hasCallback
      && (forall k :: 0 <= k < |config.sensors| && config.sensors[k].sensorType in Registry && initOk(k) ==>
            Registered(r.sensors, config.sensors[k].id))
  {
  }

  /** The entry appended for the `j`-th sensor a start-up from a fresh manager brings
      up is a copy of that sensor's own stored entry, restamped `now`. */
  lemma RestartAppendsRestampedEntries(config: DeviceConfig, initOk: nat -> bool, now: int)
    ensures var r := InitializeAsWritten(NewManager(config), 0, initOk, now);
      && |r.config.sensors| == |config.sensors| + |r.sensors|
      && (forall q :: |config.sensors| <= q < |r.config.sensors| ==>
            && r.config.sensors[q].sensorType in Registry
            && r.sensors[q - |config.sensors|] == EntrySensor(r.config.sensors[q]))
      && (forall q :: |config.sensors| <= q < |r.config.sensors| ==>
            RestampedFrom(r.config.sensors[q], config.sensors, initOk, now))
  {
    var m := NewManager(config);
    var r := InitializeAsWritten(m, 0, initOk, now);
    AsWrittenBuildsFromStored(m, r, initOk, now);
    PairsAreRestampedEntries(m, r, initOk, now);
  }

  /** Every sensor the as-written start-up adds was built from a stored entry of known
      type whose hardware initialises, as in the corrected start-up. */
  lemma AsWrittenBuildsFromStored(m: Manager, r: Manager, initOk: nat -> bool, now: int)
    requires r == InitializeAsWritten(m, 0, initOk, now)
    ensures forall p :: |m.sensors| <= p < |r.sensors| ==> BuiltFrom(r.sensors[p], m.config.sensors, 0, initOk)
  {
    var c := InitializeFromConfig(m, initOk);
    AsWrittenRegistersLikeCorrected(m, initOk, now);
    forall p | |m.sensors| <= p < |r.sensors| ensures BuiltFrom(r.sensors[p], m.config.sensors, 0, initOk) {
      assert r.sensors[p] == c.sensors[p];
    }
  }

  /** When every sensor appended was built from a stored entry, and each is paired with
      an appended stored entry, that appended entry is the stored entry restamped. */
  lemma PairsAreRestampedEntries(m: Manager, r: Manager, initOk: nat -> bool, now: int)
    requires AppendsInPairs(m, r, now)
    requires forall p :: |m.sensors| <= p < |r.sensors| ==> BuiltFrom(r.sensors[p], m.config.sensors, 0, initOk)
    ensures forall q :: |m.config.sensors| <= q < |r.config.sensors| ==>
      RestampedFrom(r.config.sensors[q], m.config.sensors, initOk, now)
  {
    forall q | |m.config.sensors| <= q < |r.config.sensors|
      ensures RestampedFrom(r.config.sensors[q], m.config.sensors, initOk, now)
    {
      var c := r.config.sensors[q];
      var p := |m.sensors| + (q - |m.config.sensors|);
      assert r.sensors[p] == EntrySensor(c);
      assert BuiltFrom(r.sensors[p], m.config.sensors, 0, initOk);
      var k :| 0 <= k < |m.config.sensors| && m.config.sensors[k].sensorType in Registry && initOk(k)
        && r.sensors[p] == EntrySensor(m.config.sensors[k]);
      SameSensorSameEntry(c, m.config.sensors[k]);
      assert c == m.config.sensors[k].(addedAt := now);
    }
  }

  /** `c` is a copy, stamped `now`, of some stored entry of known type whose hardware initialises. */
  predicate RestampedFrom(c: ConfigEntry, entries: seq<ConfigEntry>, initOk: nat -> bool, now: int) {
    exists k :: 0 <= k < |entries| && entries[k].sensorType in Registry && initOk(k) && c == entries[k].(addedAt := now)
  }

  /** Two entries of known type that build the same sensor agree on all but the time stamp. */
  lemma SameSensorSameEntry(c: ConfigEntry, e: ConfigEntry)
    requires c.sensorType in Registry && e.sensorType in Registry
    requires EntrySensor(c) == EntrySensor(e)
    ensures c.id == e.id && c.sensorType == e.sensorType && c.config == e.config
  {
    assert TypeName(Registry[c.sensorType].cls) == c.sensorType by { RegistryMatchesClasses(); }
    assert TypeName(Registry[e.sensorType].cls) == e.sensorType by { RegistryMatchesClasses(); }
  }

  /** The as-written loop, from a position `i` within the original entries, registers
      the same sensors as the corrected walk over them, as long as every stored entry
      past them is for a registered id (as the entries the loop itself appends are).
      `n` is any manager with the same registry: the walk reads only the registry. */
  lemma {:induction false} AsWrittenWalkRegistersLikeSnapshot(m: Manager, n: Manager, entries: seq<ConfigEntry>, i: nat, initOk: nat -> bool, now: int)
    requires n.sensors == m.sensors
    requires i <= |entries| <= |m.config.sensors| && m.config.sensors[..|entries|] == entries
    requires forall k :: |entries| <= k < |m.config.sensors| ==> Registered(m.sensors, m.config.sensors[k].id)
    ensures InitializeAsWritten(m, i, initOk, now).sensors == InitializeFrom(n, entries, i, initOk).sensors
    decreases Unregistered(m), |m.config.sensors| - i
  {
    if i == |entries| {
      AsWrittenSkipsRegistered(m, i, initOk, now);
    } else {
      var e := m.config.sensors[i];
      var added := AddSensor(m, e.id, e.sensorType, e.config, initOk(i), now);
      if added.ok {
        AddShrinksUnregistered(m, i, initOk(i), now);
      }
      AppendedStayRegistered(m, n, entries, i, initOk, now);
      AsWrittenWalkRegistersLikeSnapshot(added.next, Register(n, e.id, e.sensorType, e.config, initOk(i)).next, entries, i + 1, initOk, now);
      WalkStep(m, n, entries, i, initOk, now);
    }
  }

  /** Both walks take their step for the entry at position `i`, so agreeing after it
      means agreeing from it. */
  lemma WalkStep(m: Manager, n: Manager, entries: seq<ConfigEntry>, i: nat, initOk: nat -> bool, now: int)
    requires i < |entries| <= |m.config.sensors| && m.config.sensors[..|entries|] == entries
    requires var e := m.config.sensors[i];
      InitializeAsWritten(AddSensor(m, e.id, e.sensorType, e.config, initOk(i), now).next, i + 1, initOk, now).sensors
        == InitializeFrom(Register(n, e.id, e.sensorType, e.config, initOk(i)).next, entries, i + 1, initOk).sensors
    ensures InitializeAsWritten(m, i, initOk, now).sensors == InitializeFrom(n, entries, i, initOk).sensors
  {
    assert m.config.sensors[i] == entries[i] by {
      assert m.config.sensors[i] == m.config.sensors[..|entries|][i];
    }
    AsWrittenUnfold(m, i, initOk, now);
    SnapshotUnfold(n, entries, i, initOk);
  }

  /** Past the original entries the as-written loop only meets entries for
      registered ids, rejects each as a duplicate, and changes nothing. */
  lemma {:induction false} AsWrittenSkipsRegistered(m: Manager, i: nat, initOk: nat -> bool, now: int)
    requires forall k :: i <= k < |m.config.sensors| ==> Registered(m.sensors, m.config.sensors[k].id)
    ensures InitializeAsWritten(m, i, initOk, now) == m
    decreases |m.config.sensors| - i
  {
    if i < |m.config.sensors| {
      var e := m.config.sensors[i];
      assert AddSensor(m, e.id, e.sensorType, e.config, initOk(i), now).next == m;
      AsWrittenUnfold(m, i, initOk, now);
      AsWrittenSkipsRegistered(m, i + 1, initOk, now);
    }
  }

  /** One step of the as-written loop within the original entries keeps them as a
      prefix of the stored list and every entry past them registered, and changes
      the registry exactly as registering the entry in `n` does. */
  lemma AppendedStayRegistered(m: Manager, n: Manager, entries: seq<ConfigEntry>, i: nat, initOk: nat -> bool, now: int)
    requires n.sensors == m.sensors
    requires i < |entries| <= |m.config.sensors| && m.config.sensors[..|entries|] == entries
    requires forall k :: |entries| <= k < |m.config.sensors| ==> Registered(m.sensors, m.config.sensors[k].id)
    ensures var e := m.config.sensors[i];
      var next := AddSensor(m, e.id, e.sensorType, e.config, initOk(i), now).next;
      && e == entries[i]
      && |entries| <= |next.config.sensors| && next.config.sensors[..|entries|] == entries
      && (forall k :: |entries| <= k < |next.config.sensors| ==> Registered(next.sensors, next.config.sensors[k].id))
      && next.sensors == Register(n, e.id, e.sensorType, e.config, initOk(i)).next.sensors
  {
    var e := m.config.sensors[i];
    var added := AddSensor(m, e.id, e.sensorType, e.config, initOk(i), now);
    var next := added.next;
    StartStepFacts(m, i, initOk, now);
    PrefixTransitive(entries, m.config.sensors, next.config.sensors);
    forall k | |entries| <= k < |next.config.sensors| ensures Registered(next.sensors, next.config.sensors[k].id) {
      if k < |m.config.sensors| {
        assert next.config.sensors[k] == m.config.sensors[k];
        PrefixKeepsRegistered(m.sensors, next.sensors, m.config.sensors[k].id);
      } else {
        assert next.config.sensors[k].id == e.id;
      }
    }
    assert e == m.config.sensors[..|entries|][i];
  }

  lemma AsWrittenUnfold(m: Manager, i: nat, initOk: nat -> bool, now: int)
    requires i < |m.config.sensors|
    ensures var e := m.config.sensors[i];
      InitializeAsWritten(m, i, initOk, now) == InitializeAsWritten(AddSensor(m, e.id, e.sensorType, e.config, initOk(i), now).next, i + 1, initOk, now)
  {
  }

  lemma SnapshotUnfold(n: Manager, entries: seq<ConfigEntry>, i: nat, initOk: nat -> bool)
    requires i < |entries|
    ensures var e := entries[i];
      InitializeFrom(n, entries, i, initOk) == InitializeFrom(Register(n, e.id, e.sensorType, e.config, initOk(i)).next, entries, i + 1, initOk)
  {
  }

  /** The as-written and the corrected start-up register exactly the same sensors;
      they differ only in what they do to the stored list. */
  lemma AsWrittenRegistersLikeCorrected(m: Manager, initOk: nat -> bool, now: int)
    ensures InitializeAsWritten(m, 0, initOk, now).sensors == InitializeFromConfig(m, initOk).sensors
    ensures InitializeFromConfig(m, initOk).config.sensors == m.config.sensors
  {
    AsWrittenWalkRegistersLikeSnapshot(m, m, m.config.sensors, 0, initOk, now);
  }

  /** The as-written start-up duplicates the stored entry of every sensor it
      brings up: one stored BMP280 entry becomes two after a single start. */
  lemma InitializeAsWrittenDuplicatesEntry(config: DeviceConfig, e: ConfigEntry, now: int)
    requires e.sensorType == "BMP280"
    requires config.sensors == [e]
    ensures var r := InitializeAsWritten(NewManager(config), 0, _ => true, now);
      r.config.sensors == [e, ConfigEntry(e.id, e.sensorType, e.config, now)]
  {
    var m0 := NewManager(config);
    var initOk: nat -> bool := _ => true;
    var a := AddSensor(m0, e.id, e.sensorType, e.config, true, now);
    assert a.ok;
    var m1 := a.next;
    assert m1.config.sensors == [e, ConfigEntry(e.id, e.sensorType, e.config, now)];
    assert InitializeAsWritten(m0, 0, initOk, now) == InitializeAsWritten(m1, 1, initOk, now);
    assert Registered(m1.sensors, e.id);
    assert InitializeAsWritten(m1, 1, initOk, now) == InitializeAsWritten(m1, 2, initOk, now);
  }

  /** `initialize_from_config` as evidently intended: bring up a sensor for each
      stored entry, in order, without writing the stored list back a second time. */
  function InitializeFrom(m: Manager, entries: seq<ConfigEntry>, i: nat, initOk: nat -> bool): (r: Manager)
    requires i <= |entries|
    ensures r.config == m.config && r.isRunning == m.isRunning && r.hasCallback == m.hasCallback
    ensures UniqueIds(m.sensors) ==> UniqueIds(r.sensors)
    ensures forall id :: Registered(m.sensors, id) ==> Registered(r.sensors, id)
    ensures forall k :: i <= k < |entries| && entries[k].sensorType in Registry && initOk(k) ==> Registered(r.sensors, entries[k].id)
    ensures |r.sensors| >= |m.sensors| && r.sensors[..|m.sensors|] == m.sensors
    ensures forall id :: Registered(r.sensors, id) ==>
      Registered(m.sensors, id) || exists k :: i <= k < |entries| && entries[k].id == id && entries[k].sensorType in Registry && initOk(k)
    ensures forall p :: |m.sensors| <= p < |r.sensors| ==>
      BuiltFrom(r.sensors[p], entries, i, initOk)
    decreases |entries| - i
  {
    if i == |entries| then m
    else
      var e := entries[i];
      var registered := Register(m, e.id, e.sensorType, e.config, initOk(i));
      // A rejected registration returns `m` itself, so this covers both outcomes.
      var r := InitializeFrom(registered.next, entries, i + 1, initOk);
      SnapshotStep(m, r, entries, i, initOk);
      SnapshotStepBuilds(m, r, entries, i, initOk);
      r
  }

  /** `s` is the fresh sensor built for some entry at or after position `i` whose type
      is known and whose hardware initialises. */
  predicate BuiltFrom(s: Sensor, entries: seq<ConfigEntry>, i: nat, initOk: nat -> bool) {
    exists k :: i <= k < |entries| && entries[k].sensorType in Registry && initOk(k) && s == EntrySensor(entries[k])
  }

  /** One step of the corrected walk, for the entry at position `i`: every sensor the
      rest of the walk adds was built from a later entry, so every sensor the walk
      adds from `i` on was built from an entry at or after `i`. */
  lemma SnapshotStepBuilds(m: Manager, r: Manager, entries: seq<ConfigEntry>, i: nat, initOk: nat -> bool)
    requires i < |entries|
    requires var e := entries[i];
      var next := Register(m, e.id, e.sensorType, e.config, initOk(i)).next;
      && |r.sensors| >= |next.sensors| && r.sensors[..|next.sensors|] == next.sensors
      && forall p :: |next.sensors| <= p < |r.sensors| ==>
           BuiltFrom(r.sensors[p], entries, i + 1, initOk)
    ensures forall p :: |m.sensors| <= p < |r.sensors| ==>
      BuiltFrom(r.sensors[p], entries, i, initOk)
  {
    var e := entries[i];
    var registered := Register(m, e.id, e.sensorType, e.config, initOk(i));
    var next := registered.next;
    forall p | |m.sensors| <= p < |r.sensors|
      ensures BuiltFrom(r.sensors[p], entries, i, initOk)
    {
      if p < |next.sensors| {
        assert registered.ok && p == |m.sensors|;
        assert r.sensors[p] == r.sensors[..|next.sensors|][p] == EntrySensor(entries[i]);
      } else {
        assert BuiltFrom(r.sensors[p], entries, i + 1, initOk);
        var k :| i + 1 <= k < |entries| && entries[k].sensorType in Registry && initOk(k) && r.sensors[p] == EntrySensor(entries[k]);
      }
      assert BuiltFrom(r.sensors[p], entries, i, initOk);
    }
  }

  /** One step of the corrected walk, for the entry at position `i`: what the rest
      of the walk guarantees from the registry after `Register` carries back to the
      registry before it. */
  lemma SnapshotStep(m: Manager, r: Manager, entries: seq<ConfigEntry>, i: nat, initOk: nat -> bool)
    requires i < |entries|
    requires var e := entries[i];
      var next := Register(m, e.id, e.sensorType, e.config, initOk(i)).next;
      && |r.sensors| >= |next.sensors| && r.sensors[..|next.sensors|] == next.sensors
      && (forall k :: i + 1 <= k < |entries| && entries[k].sensorType in Registry && initOk(k) ==> Registered(r.sensors, entries[k].id))
      && (forall id :: Registered(r.sensors, id) ==>
            Registered(next.sensors, id) || exists k :: i + 1 <= k < |entries| && entries[k].id == id && entries[k].sensorType in Registry && initOk(k))
    ensures |r.sensors| >= |m.sensors| && r.sensors[..|m.sensors|] == m.sensors
    ensures forall id :: Registered(m.sensors, id) ==> Registered(r.sensors, id)
    ensures forall k :: i <= k < |entries| && entries[k].sensorType in Registry && initOk(k) ==> Registered(r.sensors, entries[k].id)
    ensures forall id :: Registered(r.sensors, id) ==>
      Registered(m.sensors, id) || exists k :: i <= k < |entries| && entries[k].id == id && entries[k].sensorType in Registry && initOk(k)
  {
    var e := entries[i];
    var registered := Register(m, e.id, e.sensorType, e.config, initOk(i));
    var next := registered.next;
    assert |next.sensors| >= |m.sensors| && next.sensors[..|m.sensors|] == m.sensors;
    PrefixTransitive(m.sensors, next.sensors, r.sensors);
    forall id | Registered(m.sensors, id) ensures Registered(r.sensors, id) {
      PrefixKeepsRegistered(m.sensors, r.sensors, id);
    }
    if registered.ok {
      assert next.sensors[|m.sensors|].id == e.id;
      PrefixKeepsRegistered(next.sensors, r.sensors, e.id);
    }
    forall id | Registered(r.sensors, id) && !Registered(m.sensors, id)
      ensures exists k :: i <= k < |entries| && entries[k].id == id && entries[k].sensorType in Registry && initOk(k)
    {
      if Registered(next.sensors, id) {
        var j :| 0 <= j < |next.sensors| && next.sensors[j].id == id;
        assert registered.ok && j == |m.sensors|;
      }
    }
  }

  /** The corrected start-up: walks a snapshot of the stored sensor list and leaves
      the list itself unchanged; every id ends up registered at most once. */
  function InitializeFromConfig(m: Manager, initOk: nat -> bool): (r: Manager)
    ensures r.config == m.config
    ensures UniqueIds(m.sensors) ==> UniqueIds(r.sensors)
    ensures forall k :: 0 <= k < |m.config.sensors| && m.config.sensors[k].sensorType in Registry && initOk(k) ==>
      Registered(r.sensors, m.config.sensors[k].id)
    ensures forall id :: Registered(m.sensors, id) ==> Registered(r.sensors, id)
    ensures forall id :: Registered(r.sensors, id) ==>
      || Registered(m.sensors, id)
      || exists k :: 0 <= k < |m.config.sensors| && m.config.sensors[k].id == id && m.config.sensors[k].sensorType in Registry && initOk(k)
    ensures r == m.(sensors := r.sensors)
    ensures |r.sensors| >= |m.sensors| && r.sensors[..|m.sensors|] == m.sensors
    ensures forall p :: |m.sensors| <= p < |r.sensors| ==>
      BuiltFrom(r.sensors[p], m.config.sensors, 0, initOk)
  {
    InitializeFrom(m, m.config.sensors, 0, initOk)
  }

  /** On the input that shows the duplication, the corrected start-up registers the
      sensor and keeps the stored list as it was. */
  lemma InitializeFromConfigKeepsEntry(config: DeviceConfig, e: ConfigEntry)
    requires e.sensorType == "BMP280"
    requires config.sensors == [e]
    ensures var r := InitializeFromConfig(NewManager(config), _ => true);
      r.config.sensors == [e] && Registered(r.sensors, e.id)
  {
  }
}

=== FILE: sensor_types.dfy ===
/** The registry of sensor types the device knows how to drive: each entry names
    the implementing class, the metrics it reports, its default configuration and
    the schema the configuration UI renders. */
module SensorTypes {
  import opened Wrappers

  /** The concrete sensor classes (hardware drivers are not part of this model). */
  datatype SensorClass = BMP280Sensor | DHT22Sensor

  /** One field of a configuration schema: a choice among options or a bounded number. */
  datatype ConfigField =
    | Select(title: string, description: string, options: seq<real>)
    | Number(title: string, description: string, min: real, max: real, step: real)

  datatype TypeInfo = TypeInfo(
    cls: SensorClass,
    name: string,
    metrics: seq<string>,
    defaultConfig: map<string, real>,
    schema: map<string, ConfigField>,
    status: string)

  /** `get_sensor_type()` of each class. */
  function TypeName(cls: SensorClass): string {
    match cls
    case BMP280Sensor => "BMP280"
    case DHT22Sensor => "DHT22"
  }

  /** `get_available_metrics()` of each class. */
  function ClassMetrics(cls: SensorClass): seq<string> {
    match cls
    case BMP280Sensor => ["temperature", "pressure", "altitude"]
    case DHT22Sensor => ["temperature", "humidity"]
  }

  const Bmp280Info := TypeInfo(
    BMP280Sensor,
    "BMP280 Temperature & Pressure",
    ["temperature", "pressure", "altitude"],
    map["address" := 0x76 as real, "sea_level_pressure" := 1013.25],
    map[
      "address" := Select("I2C Address", "I2C address (0x76 if SDO to GND, 0x77 if SDO to VCC)",
                          [0x76 as real, 0x77 as real]),
      "sea_level_pressure" := Number("Sea Level Pressure (hPa)", "Reference pressure for altitude calculation",
                                     900.0, 1100.0, 0.1)],
    "available")

  const Dht22Info := TypeInfo(
    DHT22Sensor,
    "DHT22 Temperature & Humidity",
    ["temperature", "humidity"],
    map["pin" := 4.0],
    map["pin" := Number("GPIO Pin (BCM)", "GPIO pin number (BCM numbering)", 2.0, 27.0, 1.0)],
    "coming_soon")

  /** `SENSOR_TYPES`. */
  const Registry: map<string, TypeInfo> := map["BMP280" := Bmp280Info, "DHT22" := Dht22Info]

  /** `get_sensor_class`: the registered class, or the `ValueError` an unknown name raises. */
  function GetSensorClass(sensorType: string): (r: Result<SensorClass, string>)
    ensures r.Success? <==> sensorType == "BMP280" || sensorType == "DHT22"
    ensures r.Success? ==> TypeName(r.value) == sensorType
    ensures r.Failure? ==> r.error == "Unknown sensor type: " + sensorType
  {
    if sensorType in Registry then Success(Registry[sensorType].cls)
    else Failure("Unknown sensor type: " + sensorType)
  }

  /** `get_available_sensors`: the whole registry, and exactly the names a lookup accepts. */
  function GetAvailableSensors(): (r: map<string, TypeInfo>)
    ensures r.Keys == {"BMP280", "DHT22"}
    ensures forall sensorType :: GetSensorClass(sensorType).Success? <==> sensorType in r
    ensures forall sensorType :: sensorType in r ==> GetSensorClass(sensorType) == Success(r[sensorType].cls)
    ensures forall sensorType :: sensorType in r ==> ClassMetrics(r[sensorType].cls) == r[sensorType].metrics
    ensures forall sensorType, key :: sensorType in r && key in r[sensorType].defaultConfig ==>
      && key in r[sensorType].schema
      && Allows(r[sensorType].schema[key], r[sensorType].defaultConfig[key])
    ensures r == Registry
  {
    RegistryMatchesClasses();
    DefaultsWithinSchema();
    Registry
  }

  /** The value `v` is one the schema field permits (its options, or its closed range). */
  predicate Allows(field: ConfigField, v: real) {
    match field
    case Select(_, _, options) => v in options
    case Number(_, _, lo, hi, _) => lo <= v <= hi
  }

  /** Each registry entry advertises the metrics its class reports, and its class
      reports the type name it is registered under. */
  lemma RegistryMatchesClasses()
    ensures forall sensorType :: sensorType in Registry ==>
      && ClassMetrics(Registry[sensorType].cls) == Registry[sensorType].metrics
      && TypeName(Registry[sensorType].cls) == sensorType
  {
  }

  /** Every default configuration value is described by the schema and permitted by it. */
  lemma DefaultsWithinSchema()
    ensures forall sensorType, key :: sensorType in Registry && key in Registry[sensorType].defaultConfig ==>
      && key in Registry[sensorType].schema
      && Allows(Registry[sensorType].schema[key], Registry[sensorType].defaultConfig[key])
  {
  }
}

=== FILE: seqs.dfy ===
/** Sequence facts the pipeline needs: the order reversal produced by draining a
    list with `pop()`, and the "kept in order" relation of a filtered list. */
module Seqs {

  /** The elements of `s` back to front. */
  function Reverse<T>(s: seq<T>): (r: seq<T>)
    ensures |r| == |s|
    ensures forall i :: 0 <= i < |s| ==> r[i] == s[|s| - 1 - i]
    ensures multiset(r) == multiset(s)
  {
    if |s| == 0 then []
    else
      var front := s[..|s| - 1];
      assert s == front + [s[|s| - 1]];
      [s[|s| - 1]] + Reverse(front)
  }

  /** `a` can be obtained from `b` by deleting elements, keeping the order of the rest. */
  predicate IsSubsequence<T(==)>(a: seq<T>, b: seq<T>)
    decreases |b|
  {
    if |a| == 0 then true
    else if |b| == 0 then false
    else if a[0] == b[0] then IsSubsequence(a[1..], b[1..])
    else IsSubsequence(a, b[1..])
  }

  /** A subsequence of `b` stays one when an element is put in front of `b`. */
  lemma {:induction false} SubsequenceOfCons<T>(a: seq<T>, b: seq<T>, x: T)
    requires IsSubsequence(a, b)
    ensures IsSubsequence(a, [x] + b)
    decreases |b|, 1
  {
    var c := [x] + b;
    assert c[1..] == b;
    if |a| > 0 && a[0] == x {
      SubsequenceDropFirst(a, b);
    }
  }

  /** Dropping the first element of a subsequence leaves a subsequence. */
  lemma {:induction false} SubsequenceDropFirst<T>(a: seq<T>, b: seq<T>)
    requires |a| > 0 && IsSubsequence(a, b)
    ensures IsSubsequence(a[1..], b)
    decreases |b|, 0
  {
    assert b == [b[0]] + b[1..];
    if a[0] == b[0] {
      SubsequenceOfCons(a[1..], b[1..], b[0]);
    } else {
      SubsequenceDropFirst(a, b[1..]);
      SubsequenceOfCons(a[1..], b[1..], b[0]);
    }
  }

  /** A subsequence is never longer than the sequence it comes from. */
  lemma {:induction false} SubsequenceLength<T>(a: seq<T>, b: seq<T>)
    requires IsSubsequence(a, b)
    ensures |a| <= |b|
    decreases |b|
  {
    if |a| > 0 {
      if a[0] == b[0] {
        SubsequenceLength(a[1..], b[1..]);
      } else {
        SubsequenceLength(a, b[1..]);
      }
    }
  }

  /** Every sequence is a subsequence of itself. */
  lemma {:induction false} SubsequenceReflexive<T>(s: seq<T>)
    ensures IsSubsequence(s, s)
    decreases |s|
  {
    if |s| > 0 {
      SubsequenceReflexive(s[1..]);
    }
  }

  /** Deleting the element at one position leaves a subsequence. */
  lemma {:induction false} DeleteAtIsSubsequence<T>(s: seq<T>, i: nat)
    requires i < |s|
    ensures IsSubsequence(s[..i] + s[i + 1..], s)
    decreases i
  {
    if i == 0 {
      assert s[..0] + s[1..] == s[1..];
      SubsequenceReflexive(s[1..]);
      SubsequenceOfCons(s[1..], s[1..], s[0]);
      assert s == [s[0]] + s[1..];
    } else {
      var t := s[1..];
      DeleteAtIsSubsequence(t, i - 1);
      var d := s[..i] + s[i + 1..];
      assert d[0] == s[0];
      assert d[1..] == t[..i - 1] + t[i..];
    }
  }

  /** A prefix of a prefix is a prefix. */
  lemma PrefixTransitive<T>(a: seq<T>, b: seq<T>, c: seq<T>)
    requires |a| <= |b| && b[..|a|] == a
    requires |b| <= |c| && c[..|b|] == b
    ensures c[..|a|] == a
  {
    assert c[..|a|] == c[..|b|][..|a|];
  }
}

=== FILE: wrappers.dfy ===
/** Option and Result wrappers shared by the sensor pipeline model: `Option` stands
    for Python's `None`-or-value returns, `Result` for a value-or-raised-error. */
module Wrappers {

  datatype Option<+T> = None | Some(value: T)

  datatype Result<+T, +E> = Success(value: T) | Failure(error: E)
}
